=== FILE: README.md ===
# filterobject: evaluating filter conditions against Go records

The `filterobject` package decides whether one Go record (a struct value, or a
pointer to one) satisfies a filter condition tree built with the
`github.com/xafelium/filter` library. `FilterApplies` looks up a handler by the
condition's type tag. There are 22 handlers:

- the combinators `and`, `or`, `not`, `where` and `group`;
- the leaf comparisons `equals`, `notEquals`, `contains`, `regex`, `notRegex`,
  `greaterThan`, `greaterThanOrEqual`, `lowerThan`, `lowerThanOrEqual`, `in`,
  `isNil` and `notNil`;
- the array operators `arrayContains`, `arrayContainsArray`, `arraysOverlap`,
  `overlaps` and `arrayIsContained`.

Each leaf first resolves its field with `getField`. That function matches the
declared name against the record's struct fields after `strcase.ToCamel`
normalisation. The leaf then applies its comparator to the field's value and
the condition's operand.

The Dafny model is a pure function over immutable data:

| module | file | what it holds |
|---|---|---|
| `Wrappers` | wrappers.dfy | `Option` and `Result` with `:-` propagation |
| `Errors` | errors.dfy | every error return, plus the run-time panics (`Panic(reason)`) |
| `Values` | values.dfy | Go dynamic values and types: Go interface equality (`GoEq`), reflect's kinds, `Type.String()`, `Value.String()` |
| `Text` | text.dfy | `strings.Index` and Go's string order |
| `Foreign` | foreign.dfy | the library calls outside the package, passed in as an `Ext` value |
| `Fields` | fields.dfy | the record and `getField` |
| `Comparison` | comparison.dfy | Equals, In, the ordering ladder, the nil tests |
| `Matching` | matching.dfy | Contains and Regex |
| `ArraySets` | sets.dfy | ArrayContains, ArraysOverlap, ArrayIsContained |
| `Conditions` | conditions.dfy | the condition tree and the handler registry |
| `Evaluator` | evaluator.dfy | `FilterApplies` and one `Apply*` function per handler |
| `EvaluatorLaws` | laws.dfy | properties of `FilterApplies` over all records, conditions and library behaviours |
| `Scenarios` | scenarios.dfy | the package's own test cases, on `TestObject` records, with concrete stand-ins for the library calls |

A handler's Go result `(bool, error)` is an `Outcome = Result<bool, Error>`.
Every combinator stops at a child's error and returns it unchanged.

The Go code panics in several places:

- `Interface()` on an unexported field or on a nil operand;
- `==` on two values of one non-comparable dynamic type;
- a map key of a non-comparable type;
- a pointer to a non-struct record.

Each of these is an `Err(Panic(reason))` outcome, not a precondition. A
precondition would have to exclude every leaf of a tree, including leaves that
short-circuiting never reaches. A panic ends the evaluation just as an error
return does.

Three behaviours of the code shape the ordering and error laws:

- **Ordering within a family only.** Each ordering branch asks `CanInt`,
  `CanFloat` or `CanUint` of both field and operand. An int field against a
  float or uint operand therefore fails with an error. Widths within one family
  are compared by value. An `int32` field holding n is neither greater nor
  lower than the `int` operand n. Yet GreaterThanOrEqual and LowerThanOrEqual
  are both false for that pair, because Equals compares dynamic types.
- **String fields.** The string branch tests the field's kind twice and never
  the operand's. So a string field is ordered against reflect's `String()` of
  any operand, which for a non-string is a placeholder such as `<int Value>`.
- **Panics.** The evaluator does not guard the run-time panics listed above;
  the model keeps them as outcomes.

## Model

| member | source | states |
|---|---|---|
| Conditions.BuiltinTypesRegistered | object_filter.go:20-44 | every condition type of the filter library has a registered handler |
| Conditions.RegisteredTypeIsHandled | object_filter.go:20-44 | every registered tag is the type of some built-in condition, so the registry has no dead entries |
| EvaluatorLaws.PassThroughConditions | object_filter.go:46-66 | a nil condition matches every record, as does Where without a child; Where and Group return their child's outcome; a tag with no handler is an error |
| EvaluatorLaws.UnresolvedFieldFailsLeaf | object_filter.go:409-436 | every leaf condition fails with getField's error when its field cannot be resolved |
| EvaluatorLaws.TooFewChildren | object_filter.go:68-108 | AND and OR with fewer than two children are errors |
| EvaluatorLaws.AndAppliesIffEveryChildApplies | object_filter.go:68-87 | AND applies exactly when every child applies |
| EvaluatorLaws.AndStopsAtFirstNonMatch | object_filter.go:68-87 | AND returns at the first child that fails or does not apply: that child's error, or false |
| EvaluatorLaws.AllApplyIffEach | object_filter.go:78-86 | the AND loop is true exactly when every child is true |
| EvaluatorLaws.AllApplyStopsAt | object_filter.go:78-86 | the AND loop's outcome is decided by the first child that is not true |
| EvaluatorLaws.OrAppliesIffSomeChildAppliesFirst | object_filter.go:89-108 | OR applies exactly when some child applies and every earlier child was false without error |
| EvaluatorLaws.OrStopsAtFirstDecidedChild | object_filter.go:89-108 | OR returns the outcome of the first child that is not false, even an error that precedes a matching child |
| EvaluatorLaws.OrFalseWhenNoChildApplies | object_filter.go:89-108 | OR is false when every child is false |
| EvaluatorLaws.AnyAppliesStopsAt | object_filter.go:99-107 | the OR loop's outcome is that of the first child that is not false |
| EvaluatorLaws.AnyAppliesNone | object_filter.go:99-107 | the OR loop is false when every child is false |
| EvaluatorLaws.AnyAppliesIffSomeFirst | object_filter.go:99-107 | the OR loop is true exactly when a true child is preceded only by false children |
| EvaluatorLaws.Negate | object_filter.go:327-335 | negation keeps success and failure apart, flips a boolean and passes an error through unchanged |
| EvaluatorLaws.NotNegates | object_filter.go:327-335 | NOT negates its child's outcome and passes an error through; a double NOT is its child |
| EvaluatorLaws.NotEqualsNegatesEquals | object_filter.go:179-189 | NotEquals is the negation of Equals, with Equals' error passed through |
| EvaluatorLaws.NotRegexNegatesRegex | object_filter.go:500-510 | NotRegex is the negation of Regex, with Regex's error passed through |
| Values.GoEq | object_filter.go:176 | Go's `==` on interface values: true exactly for equal values of one comparable type; false for different dynamic types; a panic for one non-comparable type |
| Values.GoEqSymmetric | object_filter.go:254 | Go's `==` gives the same outcome in either order, so In comparing element to field agrees with Equals comparing field to operand |
| Values.ReflectString | object_filter.go:210-211 | reflect's String() is the string itself for a string and a placeholder beginning with '<' for any other kind |
| Comparison.EqualsField | object_filter.go:166-177 | Equals after resolution is true exactly for an exported field equal to a comparable operand; a type mismatch is false; an unexported field or a non-comparable type panics |
| EvaluatorLaws.EqualsSemantics | object_filter.go:166-177 | Equals on a whole record: getField's error propagates; an exported field is Equal exactly to the same comparable value; another dynamic type gives false, never an error |
| Comparison.Member | object_filter.go:252-257 | scanning a sequence for a Go-equal element is true exactly when the value is among the elements, and panics only on an unreadable field or a non-comparable type |
| Comparison.InField | object_filter.go:239-259 | In after resolution: a non-sequence operand is an error; otherwise true exactly when Equals holds with some element; false for an empty operand |
| EvaluatorLaws.InSemantics | object_filter.go:239-259 | In on a whole record is true exactly when the operand is a sequence and Equals holds with one of its elements |
| Comparison.GreaterThanField | object_filter.go:191-221 | GreaterThan after resolution succeeds exactly for int/int, float/float, uint/uint, a string field or time/time, and otherwise ends in the ladder's error |
| Comparison.LowerThanField | object_filter.go:261-291 | LowerThan after resolution succeeds for the same families, with the same errors |
| Comparison.OrderingTrichotomy | object_filter.go:191-291 | GreaterThan and LowerThan fail together, are never both true, and are both false exactly when field and operand rank equal |
| Comparison.EqualIsNeitherGreaterNorLower | object_filter.go:166-291 | a field Equal to the operand is neither greater nor lower; for an ordered type both comparisons are false without error |
| Text.StrLessTrichotomy | object_filter.go:210 | Go's string order is a strict total order: exactly one of a < b, a == b, b < a |
| EvaluatorLaws.OrderingFamilies | object_filter.go:191-291 | on an exported field, GreaterThan and LowerThan succeed exactly for the ordered families; other pairs give CannotCompare (a time field against a nil operand panics); they are never both true |
| EvaluatorLaws.GreaterThanDirection | object_filter.go:191-221 | GreaterThan is true exactly when the field lies after the operand: numerically for ints, floats and uints, as the later instant for times, in Go's string order for strings |
| EvaluatorLaws.LowerThanDirection | object_filter.go:261-291 | LowerThan is true exactly when the field lies before the operand: numerically for ints, floats and uints, as the earlier instant for times, in Go's string order for strings |
| EvaluatorLaws.StringFieldComparesPlaceholder | object_filter.go:210-211 | a string field is ordered against reflect's String() of the operand, a '<' placeholder for a non-string |
| EvaluatorLaws.StrictDispatch | object_filter.go:46-55 | GreaterThan and LowerThan on a whole record are exactly their handlers' outcomes, so the handler-level ordering laws hold for the conditions |
| EvaluatorLaws.GreaterOrEqualDispatch | object_filter.go:46-55 | GreaterThanOrEqual on a whole record is exactly its handler's outcome, so the Equals-or-GreaterThan law holds for the condition |
| EvaluatorLaws.LowerOrEqualDispatch | object_filter.go:46-55 | LowerThanOrEqual on a whole record is exactly its handler's outcome, so the Equals-or-LowerThan law holds for the condition |
| EvaluatorLaws.GreaterOrEqualIsEqualsOrGreater | object_filter.go:223-237 | GreaterThanOrEqual fails exactly when Equals or GreaterThan fails, with Equals' error taking precedence, and otherwise is their disjunction |
| EvaluatorLaws.LowerOrEqualIsEqualsOrLower | object_filter.go:293-307 | LowerThanOrEqual fails exactly when Equals or LowerThan fails, with Equals' error taking precedence, and otherwise is their disjunction |
| EvaluatorLaws.GreaterOrEqualIsNotLower | object_filter.go:223-291 | for a field and operand of one ordered type, GreaterThanOrEqual is the negation of LowerThan |
| EvaluatorLaws.LowerOrEqualIsNotGreater | object_filter.go:191-307 | for a field and operand of one ordered type, LowerThanOrEqual is the negation of GreaterThan |
| EvaluatorLaws.OrEqualMissesEqualValueOfOtherWidth | object_filter.go:223-307 | an int32 field holding n against the int operand n: all four ordering conditions are false |
| EvaluatorLaws.OrEqualSurfacesOrderingError | object_filter.go:223-307 | a bool field Equal to its operand still fails GreaterThanOrEqual and LowerThanOrEqual, because both halves run |
| EvaluatorLaws.NilTests | object_filter.go:309-353 | IsNil fails only when the field cannot be resolved; NotNil is its negation; a non-nullable field is never nil; a nullable one is nil as reflect's IsNil says |
| Text.IndexFrom | object_filter.go:160-163 | the search from position i returns the first occurrence at or after i, or -1 exactly when there is none |
| Text.Index | object_filter.go:160-163 | strings.Index is -1 exactly when the needle is not a substring, and otherwise the first occurrence |
| Matching.ContainsField | object_filter.go:150-164 | Contains after resolution is a substring test of the lower-cased operand in the lower-cased field; it panics exactly on an unexported field |
| EvaluatorLaws.ContainsSemantics | object_filter.go:150-164 | Contains on an exported field of a whole record is that substring test |
| Matching.RegexSubject | object_filter.go:494-497 | the regex runs on the string itself, on the string a pointer refers to, on reflect's String() of what any other pointer refers to (the invalid value for a nil pointer), or on reflect's String() of the value otherwise |
| EvaluatorLaws.RegexSemantics | object_filter.go:484-498 | Regex on a whole record asks the matcher about the field's text; an invalid pattern is an error |
| ArraySets.ArrayContainsField | object_filter.go:133-139 | ArrayContains on a sequence field is true exactly when the operand is one of its elements; an empty field gives false |
| EvaluatorLaws.ArrayContainsSemantics | object_filter.go:118-140 | ArrayContains: getField's error propagates; a string field falls back to Contains on the rendered operand; another non-sequence field is an error; otherwise element membership |
| EvaluatorLaws.ArrayContainsDispatch | object_filter.go:142-148 | ArrayContainsArray runs the ArrayContains handler and takes its operand as one scalar |
| ArraySets.KeySet | object_filter.go:388-391 | building the operand's key set succeeds exactly when every element is comparable, and then holds exactly the elements |
| ArraySets.AnyIn | object_filter.go:393-398 | the overlap lookup is true exactly when some field element is a key |
| ArraySets.AllIn | object_filter.go:476-481 | the containment lookup is true exactly when every field element is a key |
| ArraySets.OverlapField | object_filter.go:355-399 | ArraysOverlap after resolution: a non-sequence field is an error; an empty field, nil operand or empty operand gives false; another non-sequence operand is an error; otherwise true exactly when the two share an element |
| ArraySets.IsContainedField | object_filter.go:438-482 | ArrayIsContained after resolution: a non-sequence field is an error; an empty field gives true; a nil or empty operand gives false, another non-sequence operand is an error; otherwise true exactly when every field element is in the operand |
| EvaluatorLaws.ArraysOverlapSemantics | object_filter.go:355-407 | ArraysOverlap and Overlaps agree; the empty/nil cases give false before any type check; a non-sequence operand is an error; differing element types are an error; otherwise true exactly on a shared element |
| EvaluatorLaws.ArraysOverlapWithoutPanic | object_filter.go:355-482 | readable, comparable elements of one element type always give an answer from both set operators |
| EvaluatorLaws.SetOperatorsIgnoreOperandOrder | object_filter.go:355-482 | ArraysOverlap and ArrayIsContained give the same outcome for any rearrangement of the operand |
| EvaluatorLaws.SameMembersSameComparability | object_filter.go:388-391 | two operands with the same elements agree on comparability and membership |
| EvaluatorLaws.KeySetOfSameMembers | object_filter.go:388-391 | two operands with the same elements build the same key set, or fail the same way |
| EvaluatorLaws.ArrayIsContainedSemantics | object_filter.go:438-482 | ArrayIsContained: an empty field gives true whatever the operand; a nil or empty operand gives false; a non-sequence operand is an error; differing element types are an error; otherwise true exactly when every field element occurs in the operand |
| Fields.StructFields | object_filter.go:410-423 | a struct record is searched directly, and a pointer to a struct through that struct; a pointer to a time.Time has no fields; a nil pointer or a record of another kind is an invalid object type; a pointer to anything else panics |
| Fields.PointerRecordResolvesLikeTarget | object_filter.go:413-415 | a record passed by pointer resolves every field name exactly as the struct it points to |
| Fields.FirstMatch | object_filter.go:424-430 | the search returns the first field whose normalised name matches, or none exactly when no field matches |
| Fields.GetFieldFindsFirstMatch | object_filter.go:409-436 | getField resolves a name to the first matching field and reports its exportedness; no match is FieldNotFound; an unsearchable record passes its error on |
| Scenarios.TestObjectScalars | object_filter_test.go:11-19 | the scalar fields of a TestObject resolve from their lower-case names |
| Scenarios.EqualsOnHeldField | object_filter_test.go:183-216 | on the example record, Equals on a field is true exactly when the field holds the operand |
| Scenarios.HarryPotterAnd | object_filter_test.go:68-81 | Harry Potter, task type magic, passes AND(taskType = magic, name contains "otter") |
| Scenarios.HarryPotterOr | object_filter_test.go:82-95 | Harry Potter passes an OR whose first child does not apply |
| Scenarios.HarryPotterRecord | object_filter_test.go:68-95 | the AND and OR cases on a TestObject |
| Scenarios.WilliGroups | object_filter_test.go:96-130 | Willi (id 42) passes the first group but neither alternative of the second, so the whole filter is false |
| Scenarios.NotEqualsId | object_filter_test.go:131-141 | a record with id 9999 passes NOT(id = 4711) |
| Scenarios.MustermannScenarios | object_filter_test.go:142-165 | Mustermann matches "mann$", does not match "frau$", and is not Musterfrau |
| Scenarios.UnknownFieldIsAnError | object_filter_test.go:218-220 | a field name the record does not declare is an error |
| Scenarios.ArrayContainsRecord | object_filter_test.go:223-317 | slices of strings and ints contain exactly their elements, through both ArrayContains and its alias |
| Scenarios.FelixLowerOrdering | object_filter_test.go:476-507 | Felix (id 15) is lower than 16 but not 14 or 15, and sorts before hans but not before berta or felix |
| Scenarios.CreatedAtGreater | object_filter_test.go:387-397 | a creation time t is after t - 5h but not after t or t + 3h |
| Scenarios.CreatedAtLower | object_filter_test.go:509-519 | a creation time t is before t + 3h but not before t or t - 5h |
| Scenarios.FelixGreaterRest | object_filter_test.go:371-385 | Felix (id 15) is not greater than 16, and sorts after neither felix nor hans |
| Scenarios.GreaterOrEqualOnHeldField | object_filter.go:223-237 | on an exported field holding x, a successful GreaterThanOrEqual is true exactly when x equals the operand or GreaterThan holds |
| Scenarios.LowerOrEqualOnHeldField | object_filter.go:293-307 | on an exported field holding x, a successful LowerThanOrEqual is true exactly when x equals the operand or LowerThan holds |
| Scenarios.FelixGreaterOrEqualId | object_filter_test.go:409-419 | Felix (id 15) is at least 14 and 15 but not at least 16 |
| Scenarios.FelixGreaterOrEqualName | object_filter_test.go:421-431 | felix sorts at or after berta and felix, but not at or after hans |
| Scenarios.CreatedAtGreaterOrEqual | object_filter_test.go:433-443 | a creation time t is at or after t - 5h and t, but not at or after t + 3h |
| Scenarios.FelixLowerOrEqualId | object_filter_test.go:531-541 | Felix (id 15) is at most 15 and 16 but not at most 14 |
| Scenarios.FelixLowerOrEqualName | object_filter_test.go:543-553 | felix sorts at or before felix and hans, but not at or before berta |
| Scenarios.CreatedAtLowerOrEqual | object_filter_test.go:555-565 | a creation time t is at or before t and t + 3h, but not at or before t - 5h |
| Scenarios.PointerToTestObject | object_filter_test.go:190-200 | Equals on a record passed by pointer sees the fields of the TestObject it points to: id 1 matches, id 2 does not |
| Scenarios.FelixRecord | object_filter_test.go:354-444 | Felix (id 15) is greater than 14 but not 15, at least 15, and sorts after berta |

## Left out

- The library calls `strcase.ToCamel`, `unicode.IsUpper`, `strings.ToLower`, `fmt.Sprintf("%s")` on non-strings and `regexp.MatchString` are fields of `Foreign.Ext`. Their source is not part of this model. The laws hold for every choice of them. The scenarios use ASCII stand-ins and a literal-suffix pattern matcher.
- Spelling equivalences of `strcase.ToCamel` (e.g. `house_ids` against `HouseIds`) cannot be stated without its source.
- Floating point is modelled by reals: NaN, infinities and negative zero are not modelled.
- `time.Time` is an integer instant. Its monotonic reading and location are left out. A `time.Time` record exposes no fields, although Go's reflection would show its unexported internals.
- Interface-typed struct fields, slices or arrays of `interface{}` elements, named non-struct types, `uintptr` and complex numbers are not values of the model.
- Values are taken to be well typed: the elements of a slice or array have its element type, which the datatype does not enforce. So an array is comparable when its element type is, as in Go, and the element comparisons of ArrayContains and In take each element's dynamic type to be its static one.
- Strings are sequences of Unicode characters, not Go's byte strings. A string that is not valid UTF-8 cannot be written, and `strings.Index` answers with a character position where Go answers with a byte offset. Filter outcomes only test that position against -1, so they agree for valid UTF-8.
- The boolean that Go returns next to an error (e.g. NOT returns `!applies` together with the child's error) is dropped: an outcome is either a boolean or an error.
- The handlers' type-assertion failures ("condition is no X") cannot occur, because each constructor of the closed `Condition` datatype reaches only its own handler. A foreign condition type with a registered tag is `WrongConditionType`.
- Error message texts are abstracted to error constructors.
- Foreign.Format, Fields.Interface and Matching.RegexField are definitions standing in for `fmt.Sprintf("%s")`, `reflect.Value.Interface()` and `regexp.MatchString`; what they promise is stated through Comparison.EqualsField, EvaluatorLaws.ContainsSemantics and EvaluatorLaws.RegexSemantics.
- The testify harness and the `init` registration mechanics are left out; the registry is a constant set.
- EvaluatorLaws.GreaterOrEqualIsEqualsOrGreater: stated on the GreaterThanOrEqual handler; FilterApplies reaches that handler by EvaluatorLaws.GreaterOrEqualDispatch.
- EvaluatorLaws.LowerOrEqualIsEqualsOrLower: stated on the LowerThanOrEqual handler; FilterApplies reaches that handler by EvaluatorLaws.LowerOrEqualDispatch.
- Scenarios.FelixRecord: covers four of the ordering rows on a TestObject; every row of the GreaterThan, GreaterThanOrEqual, LowerThan and LowerThanOrEqual tests is stated on resolved fields by the other Felix and CreatedAt scenarios, with `time.Now()` as an arbitrary instant t.
- Scenarios.ArrayContainsRecord: covers one matching and one non-matching operand per slice rather than every row.

=== FILE: comparison.dfy ===
/** Comparators on a resolved field: Equals, In, the ordering ladder of
    GreaterThan / LowerThan, and the nil tests. */
module Comparison {
  import opened Wrappers
  import opened Errors
  import opened Values
  import opened Text
  import opened Fields

  /** applyEquals after resolution: `field.Interface() == operand`. */
  function EqualsField(f: Resolved, v: Value): (r: Outcome)
    ensures r == Ok(true) <==> f.exported && f.value == v && Comparable(TypeOf(v))
    ensures f.exported && TypeOf(f.value) != TypeOf(v) ==> r == Ok(false)
    ensures r.Err? <==> !f.exported || (TypeOf(f.value) == TypeOf(v) && !Comparable(TypeOf(v)))
  {
    var x :- Interface(f);
    GoEq(x, v)
  }

  /** The scan shared by In and ArrayContains: is some element of xs Go-equal to x?
      `readable` is false when the comparison needs Interface() of a value taken
      from an unexported field, which panics at the first element. */
  function Member(readable: bool, x: Value, xs: seq<Value>): (r: Outcome)
    ensures |xs| == 0 ==> r == Ok(false)
    ensures |xs| > 0 && !readable ==> r == Err(Panic(UnexportedField))
    ensures r.Ok? ==> (r.value <==> x in xs)
    ensures r == Ok(true) ==> readable && Comparable(TypeOf(x))
    ensures readable && Comparable(TypeOf(x)) ==> r == Ok(x in xs)
    ensures r.Err? ==> r.error == Panic(UnexportedField) || r.error == Panic(Uncomparable)
  {
    if |xs| == 0 then Ok(false)
    else if !readable then Err(Panic(UnexportedField))
    else
      var eq :- GoEq(xs[0], x);
      if eq then Ok(true) else Member(readable, x, xs[1..])
  }

  /** applyIn after resolution: the operand must be a slice or array, and the
      field must equal one of its elements. */
  function InField(f: Resolved, v: Value): (r: Outcome)
    ensures !IsSequence(v) ==> r == Err(OperandNotASequence)
    ensures r == Ok(true) <==>
              IsSequence(v) && exists e :: e in Elements(v) && EqualsField(f, e) == Ok(true)
    ensures r.Ok? ==>
              (r.value <==> exists e :: e in Elements(v) && EqualsField(f, e) == Ok(true))
    ensures IsSequence(v) && |Elements(v)| == 0 ==> r == Ok(false)
  {
    if !IsSequence(v) then Err(OperandNotASequence)
    else
      var r := Member(f.exported, f.value, Elements(v));
      assert r == Ok(true) ==> EqualsField(f, f.value) == Ok(true);
      r
  }

  /** The type families the ordering ladder accepts, tried in the source's order:
      int/int, float/float, uint/uint, a string field against anything, and
      time/time (reached only after Interface() on the field). */
  predicate Orderable(f: Resolved, v: Value) {
    || (f.value.IntV? && v.IntV?)
    || (f.value.FloatV? && v.FloatV?)
    || (f.value.UintV? && v.UintV?)
    || f.value.StrV?
    || (f.exported && f.value.TimeV? && v.TimeV?)
  }

  /** The error the ladder ends in when the pair is not Orderable. */
  function OrderingError(f: Resolved, v: Value): Error {
    if !f.exported then Panic(UnexportedField)
    else if f.value.TimeV? && v.NilV? then Panic(InvalidValue)
    else CannotCompare
  }

  /** applyGreaterThan after resolution. */
  function GreaterThanField(f: Resolved, v: Value): (r: Outcome)
    ensures r.Ok? <==> Orderable(f, v)
    ensures r.Err? ==> r.error == OrderingError(f, v)
  {
    var x := f.value;
    if x.IntV? && v.IntV? then Ok(x.i > v.i)
    else if x.FloatV? && v.FloatV? then Ok(x.x > v.x)
    else if x.UintV? && v.UintV? then Ok(x.u > v.u)
    else if x.StrV? then Ok(StrLess(ReflectString(v), x.s))
    else if !f.exported then Err(Panic(UnexportedField))
    else if !x.TimeV? then Err(CannotCompare)
    else if v.NilV? then Err(Panic(InvalidValue))
    else if !v.TimeV? then Err(CannotCompare)
    else Ok(x.instant > v.instant)
  }

  /** applyLowerThan after resolution. */
  function LowerThanField(f: Resolved, v: Value): (r: Outcome)
    ensures r.Ok? <==> Orderable(f, v)
    ensures r.Err? ==> r.error == OrderingError(f, v)
  {
    var x := f.value;
    if x.IntV? && v.IntV? then Ok(x.i < v.i)
    else if x.FloatV? && v.FloatV? then Ok(x.x < v.x)
    else if x.UintV? && v.UintV? then Ok(x.u < v.u)
    else if x.StrV? then Ok(StrLess(x.s, ReflectString(v)))
    else if !f.exported then Err(Panic(UnexportedField))
    else if !x.TimeV? then Err(CannotCompare)
    else if v.NilV? then Err(Panic(InvalidValue))
    else if !v.TimeV? then Err(CannotCompare)
    else Ok(x.instant < v.instant)
  }

  /** Within an Orderable family, field and operand sit at the same place in the order. */
  predicate SameRank(f: Resolved, v: Value)
    requires Orderable(f, v)
  {
    if f.value.IntV? && v.IntV? then f.value.i == v.i
    else if f.value.FloatV? && v.FloatV? then f.value.x == v.x
    else if f.value.UintV? && v.UintV? then f.value.u == v.u
    else if f.value.StrV? then f.value.s == ReflectString(v)
    else f.value.instant == v.instant
  }

  /** GreaterThan and LowerThan fail together, are never both true, and are both
      false exactly when field and operand have the same rank. */
  lemma OrderingTrichotomy(f: Resolved, v: Value)
    ensures GreaterThanField(f, v).Ok? <==> LowerThanField(f, v).Ok?
    ensures !(GreaterThanField(f, v) == Ok(true) && LowerThanField(f, v) == Ok(true))
    ensures Orderable(f, v) ==>
              (GreaterThanField(f, v) == Ok(false) && LowerThanField(f, v) == Ok(false) <==> SameRank(f, v))
  {
    if f.value.StrV? {
      StrLessTrichotomy(f.value.s, ReflectString(v));
    }
  }

  /** A field Equal to the operand is neither greater nor lower than it; when the
      shared type is ordered, both comparisons succeed with false. */
  lemma EqualIsNeitherGreaterNorLower(f: Resolved, v: Value)
    requires EqualsField(f, v) == Ok(true)
    ensures GreaterThanField(f, v) != Ok(true) && LowerThanField(f, v) != Ok(true)
    ensures v.IntV? || v.FloatV? || v.UintV? || v.StrV? || v.TimeV? ==>
              GreaterThanField(f, v) == Ok(false) && LowerThanField(f, v) == Ok(false)
  {
    OrderingTrichotomy(f, v);
    if v.StrV? {
      StrLessTrichotomy(v.s, v.s);
    }
  }

  /** applyIsNil after resolution: IsNil for nullable kinds, false otherwise. */
  function IsNilField(f: Resolved): bool {
    if Nullable(f.value) then IsNilRef(f.value) else false
  }

  /** applyNotNil after resolution: !IsNil for nullable kinds, true otherwise. */
  function NotNilField(f: Resolved): bool {
    if Nullable(f.value) then !IsNilRef(f.value) else true
  }
}

=== FILE: conditions.dfy ===
/** Filter conditions: one constructor per condition type of the filter library,
    plus the nil condition and a condition of a type this evaluator has no
    handler for. */
module Conditions {
  import opened Values

  datatype Condition =
    | Absent                                          // a nil filter.Condition
    | And(conditions: seq<Condition>)
    | Or(conditions: seq<Condition>)
    | Not(condition: Condition)
    | Where(condition: Condition)
    | Group(condition: Condition)
    | Equals(field: string, value: Value)
    | NotEquals(field: string, value: Value)
    | Contains(field: string, value: Value)
    | Regex(field: string, expression: string)
    | NotRegex(field: string, expression: string)
    | GreaterThan(field: string, value: Value)
    | GreaterThanOrEqual(field: string, value: Value)
    | LowerThan(field: string, value: Value)
    | LowerThanOrEqual(field: string, value: Value)
    | In(field: string, value: Value)
    | IsNil(field: string)
    | NotNil(field: string)
    | ArrayContains(field: string, value: Value)
    | ArrayContainsArray(field: string, value: Value)
    | ArrayIsContained(field: string, value: Value)
    | ArraysOverlap(field: string, value: Value)
    | Overlaps(field: string, value: Value)
    | OtherCondition(tag: string)                     // some other implementation of filter.Condition

  /** condition.Type(): the tag the evaluator dispatches on. */
  function Type(c: Condition): string
    requires !c.Absent?
  {
    match c
    case And(_) => "and"
    case Or(_) => "or"
    case Not(_) => "not"
    case Where(_) => "where"
    case Group(_) => "group"
    case Equals(_, _) => "equals"
    case NotEquals(_, _) => "notEquals"
    case Contains(_, _) => "contains"
    case Regex(_, _) => "regex"
    case NotRegex(_, _) => "notRegex"
    case GreaterThan(_, _) => "greaterThan"
    case GreaterThanOrEqual(_, _) => "greaterThanOrEqual"
    case LowerThan(_, _) => "lowerThan"
    case LowerThanOrEqual(_, _) => "lowerThanOrEqual"
    case In(_, _) => "in"
    case IsNil(_) => "isNil"
    case NotNil(_) => "notNil"
    case ArrayContains(_, _) => "arrayContains"
    case ArrayContainsArray(_, _) => "arrayContainsArray"
    case ArrayIsContained(_, _) => "arrayIsContained"
    case ArraysOverlap(_, _) => "arraysOverlap"
    case Overlaps(_, _) => "overlaps"
    case OtherCondition(t) => t
  }

  /** The tags the init function registers a handler for. */
  const Registry: set<string> := {
    "and", "arrayContains", "arrayContainsArray", "arrayIsContained", "arraysOverlap",
    "contains", "equals", "greaterThan", "greaterThanOrEqual", "group", "in",
    "lowerThan", "lowerThanOrEqual", "isNil", "not", "notEquals", "notNil",
    "notRegex", "or", "overlaps", "regex", "where"
  }

  /** A condition built by the filter library's own constructors. */
  predicate IsBuiltin(c: Condition) {
    !c.Absent? && !c.OtherCondition?
  }

  /** Every built-in condition type has a handler. */
  lemma BuiltinTypesRegistered(c: Condition)
    requires IsBuiltin(c)
    ensures Type(c) in Registry
  {
  }

  /** Every registered tag is the type of some built-in condition. */
  lemma RegisteredTypeIsHandled(t: string)
    requires t in Registry
    ensures exists c :: IsBuiltin(c) && Type(c) == t
  {
    var c := match t
      case "and" => And([])
      case "or" => Or([])
      case "not" => Not(Absent)
      case "where" => Where(Absent)
      case "group" => Group(Absent)
      case "equals" => Equals("", NilV)
      case "notEquals" => NotEquals("", NilV)
      case "contains" => Contains("", NilV)
      case "regex" => Regex("", "")
      case "notRegex" => NotRegex("", "")
      case "greaterThan" => GreaterThan("", NilV)
      case "greaterThanOrEqual" => GreaterThanOrEqual("", NilV)
      case "lowerThan" => LowerThan("", NilV)
      case "lowerThanOrEqual" => LowerThanOrEqual("", NilV)
      case "in" => In("", NilV)
      case "isNil" => IsNil("")
      case "notNil" => NotNil("")
      case "arrayContains" => ArrayContains("", NilV)
      case "arrayContainsArray" => ArrayContainsArray("", NilV)
      case "arrayIsContained" => ArrayIsContained("", NilV)
      case "arraysOverlap" => ArraysOverlap("", NilV)
      case _ => Overlaps("", NilV);
    assert IsBuiltin(c) && Type(c) == t;
  }
}

=== FILE: errors.dfy ===
/** The ways one evaluation can fail. Each constructor stands for one error return
    (or one run-time panic) of the evaluator; see README for the source lines. */
module Errors {
  import opened Wrappers

  /** Why Go's runtime would panic; the panic ends the evaluation just like an error. */
  datatype PanicReason =
    | UnexportedField     // reflect.Value.Interface() on a field obtained from an unexported struct field
    | Uncomparable        // == on two interface values of one non-comparable dynamic type
    | Unhashable          // a map key (insert or lookup) whose dynamic type is not comparable
    | InvalidValue        // Interface() on the zero reflect.Value (a nil operand)
    | NotAStruct          // NumField() on a record reached through a pointer to a non-struct

  datatype Error =
    | UnknownCondition(tag: string)       // no handler registered for the tag
    | WrongConditionType(tag: string)     // handler found, but the node is not of its type
    | TooFewConditions(op: string)        // AND / OR with fewer than two children
    | InvalidObjectType                   // the record is neither a struct nor a pointer to one
    | FieldNotFound(name: string)         // no struct field matches the normalised name
    | FieldNotASequence                   // an array operator on a field that is no slice/array
    | OperandNotASequence                 // In / set operators with an operand that is no slice/array
    | ElementTypeMismatch                 // set operators on slices of different element types
    | CannotCompare                       // ordering between types the ladder does not handle
    | InvalidPattern                      // the regular expression does not compile
    | Panic(reason: PanicReason)

  /** What one handler returns: Go's `(bool, error)`, with the error taking precedence. */
  type Outcome = Result<bool, Error>
}

=== FILE: evaluator.dfy ===
/** The evaluator: FilterApplies dispatches on the condition's type to one
    handler per condition type; each leaf handler resolves its field afresh and
    applies its comparator; the combinators recurse through FilterApplies. */
module Evaluator {
  import opened Wrappers
  import opened Errors
  import opened Values
  import opened Foreign
  import opened Fields
  import opened Comparison
  import opened Matching
  import opened ArraySets
  import opened Conditions

  function ApplyEquals(ext: Ext, obj: Object, name: string, v: Value): Outcome {
    var f :- GetField(ext, obj, name);
    EqualsField(f, v)
  }

  function ApplyIn(ext: Ext, obj: Object, name: string, v: Value): Outcome {
    var f :- GetField(ext, obj, name);
    InField(f, v)
  }

  function ApplyGreaterThan(ext: Ext, obj: Object, name: string, v: Value): Outcome {
    var f :- GetField(ext, obj, name);
    GreaterThanField(f, v)
  }

  function ApplyLowerThan(ext: Ext, obj: Object, name: string, v: Value): Outcome {
    var f :- GetField(ext, obj, name);
    LowerThanField(f, v)
  }

  /** Equals, then GreaterThan, both evaluated; either error ends the evaluation. */
  function ApplyGreaterThanOrEqual(ext: Ext, obj: Object, name: string, v: Value): Outcome {
    var isEq :- ApplyEquals(ext, obj, name, v);
    var isGt :- ApplyGreaterThan(ext, obj, name, v);
    Ok(isEq || isGt)
  }

  /** Equals, then LowerThan, both evaluated; either error ends the evaluation. */
  function ApplyLowerThanOrEqual(ext: Ext, obj: Object, name: string, v: Value): Outcome {
    var isEq :- ApplyEquals(ext, obj, name, v);
    var isLt :- ApplyLowerThan(ext, obj, name, v);
    Ok(isEq || isLt)
  }

  function ApplyIsNil(ext: Ext, obj: Object, name: string): Outcome {
    var f :- GetField(ext, obj, name);
    Ok(IsNilField(f))
  }

  function ApplyNotNil(ext: Ext, obj: Object, name: string): Outcome {
    var f :- GetField(ext, obj, name);
    Ok(NotNilField(f))
  }

  function ApplyContains(ext: Ext, obj: Object, name: string, v: Value): Outcome {
    var f :- GetField(ext, obj, name);
    ContainsField(ext, f, v)
  }

  function ApplyRegex(ext: Ext, obj: Object, name: string, pattern: string): Outcome {
    var f :- GetField(ext, obj, name);
    RegexField(ext, obj.mem, f, pattern)
  }

  /** A string field falls back to Contains with the operand rendered by "%s";
      any other field must be a slice or array holding the operand. */
  function ApplyArrayContains(ext: Ext, obj: Object, name: string, v: Value): Outcome {
    var f :- GetField(ext, obj, name);
    if f.value.StrV? then ApplyContains(ext, obj, name, StrV(Format(ext, v)))
    else if !IsSequence(f.value) then Err(FieldNotASequence)
    else ArrayContainsField(f, v)
  }

  function ApplyArraysOverlap(ext: Ext, obj: Object, name: string, v: Value): Outcome {
    var f :- GetField(ext, obj, name);
    OverlapField(f, v)
  }

  function ApplyArrayIsContained(ext: Ext, obj: Object, name: string, v: Value): Outcome {
    var f :- GetField(ext, obj, name);
    IsContainedField(f, v)
  }

  /** FilterApplies: a nil condition matches; otherwise the handler registered for
      the condition's type decides. */
  function FilterApplies(ext: Ext, obj: Object, c: Condition): Outcome
    decreases c
  {
    match c
    case Absent => Ok(true)
    case OtherCondition(tag) =>
      if tag in Registry then Err(WrongConditionType(tag)) else Err(UnknownCondition(tag))
    case Where(child) =>
      if child.Absent? then Ok(true) else FilterApplies(ext, obj, child)
    case Group(child) => FilterApplies(ext, obj, child)
    case Not(child) =>
      var applies :- FilterApplies(ext, obj, child);
      Ok(!applies)
    case And(cs) =>
      if |cs| < 2 then Err(TooFewConditions("AND")) else AllApply(ext, obj, cs)
    case Or(cs) =>
      if |cs| < 2 then Err(TooFewConditions("OR")) else AnyApplies(ext, obj, cs)
    case Equals(name, v) => ApplyEquals(ext, obj, name, v)
    case NotEquals(name, v) =>
      var applies :- ApplyEquals(ext, obj, name, v);
      Ok(!applies)
    case Contains(name, v) => ApplyContains(ext, obj, name, v)
    case Regex(name, pattern) => ApplyRegex(ext, obj, name, pattern)
    case NotRegex(name, pattern) =>
      var applies :- ApplyRegex(ext, obj, name, pattern);
      Ok(!applies)
    case GreaterThan(name, v) => ApplyGreaterThan(ext, obj, name, v)
    case GreaterThanOrEqual(name, v) => ApplyGreaterThanOrEqual(ext, obj, name, v)
    case LowerThan(name, v) => ApplyLowerThan(ext, obj, name, v)
    case LowerThanOrEqual(name, v) => ApplyLowerThanOrEqual(ext, obj, name, v)
    case In(name, v) => ApplyIn(ext, obj, name, v)
    case IsNil(name) => ApplyIsNil(ext, obj, name)
    case NotNil(name) => ApplyNotNil(ext, obj, name)
    case ArrayContains(name, v) => ApplyArrayContains(ext, obj, name, v)
    case ArrayContainsArray(name, v) => ApplyArrayContains(ext, obj, name, v)
    case ArrayIsContained(name, v) => ApplyArrayIsContained(ext, obj, name, v)
    case ArraysOverlap(name, v) => ApplyArraysOverlap(ext, obj, name, v)
    case Overlaps(name, v) => ApplyArraysOverlap(ext, obj, name, v)
  }

  /** The AND loop: stop at the first child that fails or does not apply. */
  function AllApply(ext: Ext, obj: Object, cs: seq<Condition>): Outcome
    decreases cs
  {
    if |cs| == 0 then Ok(true)
    else
      var applies :- FilterApplies(ext, obj, cs[0]);
      if !applies then Ok(false) else AllApply(ext, obj, cs[1..])
  }

  /** The OR loop: stop at the first child that fails or applies. */
  function AnyApplies(ext: Ext, obj: Object, cs: seq<Condition>): Outcome
    decreases cs
  {
    if |cs| == 0 then Ok(false)
    else
      var applies :- FilterApplies(ext, obj, cs[0]);
      if applies then Ok(true) else AnyApplies(ext, obj, cs[1..])
  }
}

=== FILE: fields.dfy ===
/** The field resolver (getField): maps a declared field name to a struct field of
    the record, comparing names after strcase.ToCamel normalisation. */
module Fields {
  import opened Wrappers
  import opened Errors
  import opened Values
  import opened Foreign

  /** The record passed to the evaluator (`obj any`) together with the memory its
      pointers refer to. */
  datatype Object = Object(root: Value, mem: nat -> Value)

  /** A resolved field: its value and whether the field is exported. reflect lets
      the evaluator read kind, length and scalar contents of any field, but
      `Interface()` panics on a value obtained from an unexported field. */
  datatype Resolved = Resolved(value: Value, exported: bool)

  /** Go exports a field whose name starts with an upper-case letter. */
  predicate IsExported(ext: Ext, name: string) {
    |name| > 0 && ext.isUpper(name[0])
  }

  /** reflect.Value.Interface() on a resolved field (or an element of one). */
  function Interface(f: Resolved): (r: Result<Value, Error>)
    ensures r.Ok? <==> f.exported
    ensures r.Ok? ==> r.value == f.value
    ensures r.Err? ==> r.error == Panic(UnexportedField)
  {
    if f.exported then Ok(f.value) else Err(Panic(UnexportedField))
  }

  /** The struct whose fields are searched: the record itself, or the struct a
      non-nil pointer record points to. A time.Time record exposes none of its
      (unexported, unmodelled) internals. */
  function StructFields(obj: Object): (r: Result<seq<Field>, Error>)
    ensures obj.root.StructV? ==> r == Ok(obj.root.fields)
    ensures r.Err? && r.error == InvalidObjectType <==>
              !obj.root.StructV? && !obj.root.TimeV? && !(obj.root.PtrV? && obj.root.addr.Some?)
    ensures r.Err? && r.error != InvalidObjectType ==> r.error == Panic(NotAStruct)
    ensures obj.root.PtrV? && obj.root.addr.Some? && obj.mem(obj.root.addr.value).StructV? ==>
              r == Ok(obj.mem(obj.root.addr.value).fields)
    ensures obj.root.TimeV? ==> r == Ok([])
    ensures obj.root.PtrV? && obj.root.addr.Some? && obj.mem(obj.root.addr.value).TimeV? ==> r == Ok([])
    ensures (obj.root.PtrV? && obj.root.addr.Some? && !obj.mem(obj.root.addr.value).StructV?
               && !obj.mem(obj.root.addr.value).TimeV?) ==> r == Err(Panic(NotAStruct))
  {
    match obj.root
    case StructV(_, _, fs) => Ok(fs)
    case TimeV(_) => Ok([])
    case PtrV(_, addr) =>
      if addr.None? then Err(InvalidObjectType)
      else
        var target := obj.mem(addr.value);
        if target.StructV? then Ok(target.fields)
        else if target.TimeV? then Ok([])
        else Err(Panic(NotAStruct))
    case _ => Err(InvalidObjectType)
  }

  /** A record passed by pointer resolves every name exactly as the struct it
      points to does. */
  lemma PointerRecordResolvesLikeTarget(ext: Ext, obj: Object, name: string)
    requires obj.root.PtrV? && obj.root.addr.Some? && obj.mem(obj.root.addr.value).StructV?
    ensures GetField(ext, obj, name) == GetField(ext, Object(obj.mem(obj.root.addr.value), obj.mem), name)
  {
  }

  /** Field f answers to the declared name `name`. */
  predicate NameMatches(ext: Ext, f: Field, name: string) {
    ext.toCamel(f.name) == ext.toCamel(name)
  }

  /** The first index at or after `from` whose field answers to `name`. */
  function FirstMatch(ext: Ext, fs: seq<Field>, name: string, from: nat): (r: Option<nat>)
    requires from <= |fs|
    decreases |fs| - from
    ensures r.None? <==> forall j :: from <= j < |fs| ==> !NameMatches(ext, fs[j], name)
    ensures r.Some? ==> from <= r.value < |fs| && NameMatches(ext, fs[r.value], name)
    ensures r.Some? ==> forall j :: from <= j < r.value ==> !NameMatches(ext, fs[j], name)
  {
    if from == |fs| then None
    else if NameMatches(ext, fs[from], name) then Some(from)
    else FirstMatch(ext, fs, name, from + 1)
  }

  /** getField: the first struct field whose ToCamel-normalised name equals the
      normalised declared name. */
  function GetField(ext: Ext, obj: Object, name: string): Result<Resolved, Error> {
    var fs :- StructFields(obj);
    match FirstMatch(ext, fs, name, 0)
    case None => Err(FieldNotFound(name))
    case Some(i) => Ok(Resolved(fs[i].value, IsExported(ext, fs[i].name)))
  }

  /** getField resolves a name to the first field answering to it, reports a
      name no field answers to, and passes on a record it cannot search. */
  lemma GetFieldFindsFirstMatch(ext: Ext, obj: Object, name: string)
    ensures StructFields(obj).Err? ==> GetField(ext, obj, name) == Err(StructFields(obj).error)
    ensures StructFields(obj).Ok? && GetField(ext, obj, name).Ok? ==>
              var fs := StructFields(obj).value;
              exists i :: 0 <= i < |fs| && NameMatches(ext, fs[i], name)
                && (forall j :: 0 <= j < i ==> !NameMatches(ext, fs[j], name))
                && GetField(ext, obj, name).value == Resolved(fs[i].value, IsExported(ext, fs[i].name))
    ensures StructFields(obj).Ok? && GetField(ext, obj, name).Err? ==>
              GetField(ext, obj, name).error == FieldNotFound(name)
              && forall f :: f in StructFields(obj).value ==> !NameMatches(ext, f, name)
  {
  }
}

=== FILE: foreign.dfy ===
/** The library calls the evaluator makes into code outside this model. They are
    parameters of every evaluation, so nothing is assumed about them beyond their
    signatures. */
module Foreign {
  import opened Wrappers
  import opened Values

  datatype Ext = Ext(
    toCamel: string -> string,                     // strcase.ToCamel
    isUpper: char -> bool,                         // unicode.IsUpper (decides exported field names)
    toLower: string -> string,                     // strings.ToLower
    format: Value -> string,                       // fmt.Sprintf("%s", v) for a value of non-string kind
    matchString: (string, string) -> Option<bool>) // regexp.MatchString(pattern, s); None: the pattern does not compile

  /** fmt.Sprintf("%s", v): a string is rendered as itself. */
  function Format(ext: Ext, v: Value): (r: string)
    ensures v.StrV? ==> r == v.s
    ensures !v.StrV? ==> r == ext.format(v)
  {
    if v.StrV? then v.s else ext.format(v)
  }
}

=== FILE: laws.dfy ===
/** Properties of FilterApplies: the combinators, the negating operators, and the
    leaf operators stated at the level of a whole condition. */
module EvaluatorLaws {
  import opened Wrappers
  import opened Errors
  import opened Values
  import opened Text
  import opened Foreign
  import opened Fields
  import opened Comparison
  import opened ArraySets
  import opened Conditions
  import opened Evaluator

  /** Logical negation of an outcome; an error passes through unchanged. */
  function Negate(o: Outcome): (r: Outcome)
    ensures r.Ok? <==> o.Ok?
    ensures r.Ok? ==> r.value != o.value
    ensures r.Err? ==> r == o
  {
    match o
    case Ok(b) => Ok(!b)
    case Err(_) => o
  }

  // ---------------------------------------------------------------- dispatch

  /** No condition matches every record; Where without a child matches; Where
      and Group pass their child's outcome through; a condition type without a
      handler is an error. */
  lemma PassThroughConditions(ext: Ext, obj: Object, c: Condition, tag: string)
    ensures FilterApplies(ext, obj, Absent) == Ok(true)
    ensures FilterApplies(ext, obj, Where(Absent)) == Ok(true)
    ensures FilterApplies(ext, obj, Where(c)) == FilterApplies(ext, obj, c)
    ensures FilterApplies(ext, obj, Group(c)) == FilterApplies(ext, obj, c)
    ensures FilterApplies(ext, obj, OtherCondition(tag)).Err?
    ensures tag !in Registry ==> FilterApplies(ext, obj, OtherCondition(tag)) == Err(UnknownCondition(tag))
  {
  }

  /** Every leaf condition resolves its field first: a field the resolver cannot
      find (or a record it cannot search) is the outcome of the whole leaf. */
  lemma UnresolvedFieldFailsLeaf(ext: Ext, obj: Object, c: Condition)
    requires IsBuiltin(c) && !c.And? && !c.Or? && !c.Not? && !c.Where? && !c.Group?
    requires GetField(ext, obj, c.field).Err?
    ensures FilterApplies(ext, obj, c) == Err(GetField(ext, obj, c.field).error)
  {
  }

  // ------------------------------------------------------------ AND and OR

  lemma TooFewChildren(ext: Ext, obj: Object, cs: seq<Condition>)
    requires |cs| < 2
    ensures FilterApplies(ext, obj, And(cs)) == Err(TooFewConditions("AND"))
    ensures FilterApplies(ext, obj, Or(cs)) == Err(TooFewConditions("OR"))
  {
  }

  lemma {:induction false} AllApplyIffEach(ext: Ext, obj: Object, cs: seq<Condition>)
    ensures AllApply(ext, obj, cs) == Ok(true) <==>
              forall i :: 0 <= i < |cs| ==> FilterApplies(ext, obj, cs[i]) == Ok(true)
    decreases |cs|
  {
    if |cs| > 0 {
      AllApplyIffEach(ext, obj, cs[1..]);
      assert forall i :: 1 <= i < |cs| ==> cs[1..][i - 1] == cs[i];
    }
  }

  lemma {:induction false} AllApplyStopsAt(ext: Ext, obj: Object, cs: seq<Condition>, k: nat)
    requires k < |cs|
    requires forall j :: 0 <= j < k ==> FilterApplies(ext, obj, cs[j]) == Ok(true)
    requires FilterApplies(ext, obj, cs[k]) != Ok(true)
    ensures AllApply(ext, obj, cs) ==
              if FilterApplies(ext, obj, cs[k]).Err? then FilterApplies(ext, obj, cs[k]) else Ok(false)
    decreases k
  {
    if k > 0 {
      assert cs[1..][k - 1] == cs[k];
      assert forall j :: 0 <= j < k - 1 ==> cs[1..][j] == cs[j + 1];
      AllApplyStopsAt(ext, obj, cs[1..], k - 1);
    }
  }

  /** AND with at least two children applies exactly when every child applies. */
  lemma AndAppliesIffEveryChildApplies(ext: Ext, obj: Object, cs: seq<Condition>)
    requires |cs| >= 2
    ensures FilterApplies(ext, obj, And(cs)) == Ok(true) <==>
              forall i :: 0 <= i < |cs| ==> FilterApplies(ext, obj, cs[i]) == Ok(true)
  {
    AllApplyIffEach(ext, obj, cs);
  }

  /** AND returns at the first child that fails or does not apply: that child's
      error, or false; later children do not matter. */
  lemma AndStopsAtFirstNonMatch(ext: Ext, obj: Object, cs: seq<Condition>, k: nat)
    requires |cs| >= 2 && k < |cs|
    requires forall j :: 0 <= j < k ==> FilterApplies(ext, obj, cs[j]) == Ok(true)
    requires FilterApplies(ext, obj, cs[k]) != Ok(true)
    ensures FilterApplies(ext, obj, And(cs)) ==
              if FilterApplies(ext, obj, cs[k]).Err? then FilterApplies(ext, obj, cs[k]) else Ok(false)
  {
    AllApplyStopsAt(ext, obj, cs, k);
  }

  lemma {:induction false} AnyAppliesStopsAt(ext: Ext, obj: Object, cs: seq<Condition>, k: nat)
    requires k < |cs|
    requires forall j :: 0 <= j < k ==> FilterApplies(ext, obj, cs[j]) == Ok(false)
    requires FilterApplies(ext, obj, cs[k]) != Ok(false)
    ensures AnyApplies(ext, obj, cs) == FilterApplies(ext, obj, cs[k])
    decreases k
  {
    if k > 0 {
      assert cs[1..][k - 1] == cs[k];
      assert forall j :: 0 <= j < k - 1 ==> cs[1..][j] == cs[j + 1];
      AnyAppliesStopsAt(ext, obj, cs[1..], k - 1);
    }
  }

  lemma {:induction false} AnyAppliesNone(ext: Ext, obj: Object, cs: seq<Condition>)
    requires forall i :: 0 <= i < |cs| ==> FilterApplies(ext, obj, cs[i]) == Ok(false)
    ensures AnyApplies(ext, obj, cs) == Ok(false)
    decreases |cs|
  {
    if |cs| > 0 {
      assert forall i :: 0 <= i < |cs| - 1 ==> cs[1..][i] == cs[i + 1];
      AnyAppliesNone(ext, obj, cs[1..]);
    }
  }

  /** Child k is the first to apply: it is true and every child before it is false. */
  ghost predicate AppliesFirstAt(ext: Ext, obj: Object, cs: seq<Condition>, k: int) {
    0 <= k < |cs| && FilterApplies(ext, obj, cs[k]) == Ok(true)
      && forall j :: 0 <= j < k ==> FilterApplies(ext, obj, cs[j]) == Ok(false)
  }

  /** Behind a false first child, the first applying child is found one step on. */
  lemma AppliesFirstBehindFalseHead(ext: Ext, obj: Object, cs: seq<Condition>)
    requires |cs| > 0 && FilterApplies(ext, obj, cs[0]) == Ok(false)
    ensures (exists k :: AppliesFirstAt(ext, obj, cs, k)) <==> (exists k :: AppliesFirstAt(ext, obj, cs[1..], k))
  {
    forall k | AppliesFirstAt(ext, obj, cs, k) ensures AppliesFirstAt(ext, obj, cs[1..], k - 1) {
      assert cs[1..][k - 1] == cs[k];
      forall j | 0 <= j < k - 1 ensures FilterApplies(ext, obj, cs[1..][j]) == Ok(false) {
        assert cs[1..][j] == cs[j + 1];
      }
    }
    forall k | AppliesFirstAt(ext, obj, cs[1..], k) ensures AppliesFirstAt(ext, obj, cs, k + 1) {
      assert cs[k + 1] == cs[1..][k];
      forall j | 0 <= j < k + 1 ensures FilterApplies(ext, obj, cs[j]) == Ok(false) {
        if j > 0 { assert cs[j] == cs[1..][j - 1]; }
      }
    }
  }

  lemma {:induction false} AnyAppliesIffSomeFirst(ext: Ext, obj: Object, cs: seq<Condition>)
    ensures AnyApplies(ext, obj, cs) == Ok(true) <==> exists k :: AppliesFirstAt(ext, obj, cs, k)
    decreases |cs|
  {
    if |cs| > 0 {
      AnyAppliesIffSomeFirst(ext, obj, cs[1..]);
      var head := FilterApplies(ext, obj, cs[0]);
      if head == Ok(false) {
        AppliesFirstBehindFalseHead(ext, obj, cs);
      } else if head == Ok(true) {
        assert AppliesFirstAt(ext, obj, cs, 0);
      } else {
        forall k | 0 <= k < |cs| ensures !AppliesFirstAt(ext, obj, cs, k) {
          if k > 0 { assert FilterApplies(ext, obj, cs[0]) != Ok(false); }
        }
      }
    }
  }

  /** OR with at least two children applies exactly when some child applies and
      every child before it evaluated to false without error. */
  lemma OrAppliesIffSomeChildAppliesFirst(ext: Ext, obj: Object, cs: seq<Condition>)
    requires |cs| >= 2
    ensures FilterApplies(ext, obj, Or(cs)) == Ok(true) <==>
              exists k :: 0 <= k < |cs| && FilterApplies(ext, obj, cs[k]) == Ok(true)
                && forall j :: 0 <= j < k ==> FilterApplies(ext, obj, cs[j]) == Ok(false)
  {
    AnyAppliesIffSomeFirst(ext, obj, cs);
    if FilterApplies(ext, obj, Or(cs)) == Ok(true) {
      var k :| AppliesFirstAt(ext, obj, cs, k);
      assert FilterApplies(ext, obj, cs[k]) == Ok(true);
    } else {
      forall k | 0 <= k < |cs| && FilterApplies(ext, obj, cs[k]) == Ok(true)
        ensures exists j :: 0 <= j < k && FilterApplies(ext, obj, cs[j]) != Ok(false)
      {
        assert !AppliesFirstAt(ext, obj, cs, k);
      }
    }
  }

  /** OR returns the outcome of the first child that does not evaluate to false:
      true, or that child's error even if a later child would apply. */
  lemma OrStopsAtFirstDecidedChild(ext: Ext, obj: Object, cs: seq<Condition>, k: nat)
    requires |cs| >= 2 && k < |cs|
    requires forall j :: 0 <= j < k ==> FilterApplies(ext, obj, cs[j]) == Ok(false)
    requires FilterApplies(ext, obj, cs[k]) != Ok(false)
    ensures FilterApplies(ext, obj, Or(cs)) == FilterApplies(ext, obj, cs[k])
  {
    AnyAppliesStopsAt(ext, obj, cs, k);
  }

  /** OR is false when every child is false. */
  lemma OrFalseWhenNoChildApplies(ext: Ext, obj: Object, cs: seq<Condition>)
    requires |cs| >= 2
    requires forall i :: 0 <= i < |cs| ==> FilterApplies(ext, obj, cs[i]) == Ok(false)
    ensures FilterApplies(ext, obj, Or(cs)) == Ok(false)
  {
    AnyAppliesNone(ext, obj, cs);
  }

  // ---------------------------------------------------------------- negation

  /** NOT negates its child's outcome, passing an error through; a double NOT
      evaluates like its child. */
  lemma NotNegates(ext: Ext, obj: Object, c: Condition)
    ensures FilterApplies(ext, obj, Not(c)) == Negate(FilterApplies(ext, obj, c))
    ensures FilterApplies(ext, obj, Not(Not(c))) == FilterApplies(ext, obj, c)
  {
    assert FilterApplies(ext, obj, Not(c)) == Negate(FilterApplies(ext, obj, c));
  }

  /** NotEquals is the negation of Equals, passing an error through. */
  lemma NotEqualsNegatesEquals(ext: Ext, obj: Object, name: string, v: Value)
    ensures FilterApplies(ext, obj, NotEquals(name, v)) == Negate(FilterApplies(ext, obj, Equals(name, v)))
  {
    assert FilterApplies(ext, obj, Equals(name, v)) == ApplyEquals(ext, obj, name, v);
  }

  /** NotRegex is the negation of Regex, passing an error through. */
  lemma NotRegexNegatesRegex(ext: Ext, obj: Object, name: string, pattern: string)
    ensures FilterApplies(ext, obj, NotRegex(name, pattern)) == Negate(FilterApplies(ext, obj, Regex(name, pattern)))
  {
    assert FilterApplies(ext, obj, Regex(name, pattern)) == ApplyRegex(ext, obj, name, pattern);
  }

  // ------------------------------------------------------- equality and In

  /** Equals on an exported field is true exactly for an operand of the same
      dynamic type and value, and false (never an error) for an operand of
      another dynamic type. */
  lemma EqualsSemantics(ext: Ext, obj: Object, name: string, v: Value)
    ensures GetField(ext, obj, name).Err? ==>
              FilterApplies(ext, obj, Equals(name, v)) == Err(GetField(ext, obj, name).error)
    ensures GetField(ext, obj, name).Ok? && GetField(ext, obj, name).value.exported ==>
              var x := GetField(ext, obj, name).value.value;
              && (FilterApplies(ext, obj, Equals(name, v)) == Ok(true) <==> x == v && Comparable(TypeOf(v)))
              && (TypeOf(x) != TypeOf(v) ==> FilterApplies(ext, obj, Equals(name, v)) == Ok(false))
              && (Comparable(TypeOf(v)) ==> FilterApplies(ext, obj, Equals(name, v)).Ok?)
  {
  }

  /** In is true exactly when the operand is a slice or array and Equals holds
      between the field and one of its elements; any other operand is an error. */
  lemma InSemantics(ext: Ext, obj: Object, name: string, v: Value)
    ensures FilterApplies(ext, obj, In(name, v)) == Ok(true) <==>
              IsSequence(v) && exists e :: e in Elements(v) && FilterApplies(ext, obj, Equals(name, e)) == Ok(true)
    ensures GetField(ext, obj, name).Ok? && !IsSequence(v) ==>
              FilterApplies(ext, obj, In(name, v)) == Err(OperandNotASequence)
    ensures GetField(ext, obj, name).Err? ==>
              FilterApplies(ext, obj, In(name, v)) == Err(GetField(ext, obj, name).error)
  {
    if GetField(ext, obj, name).Ok? {
      var f := GetField(ext, obj, name).value;
      assert forall e :: FilterApplies(ext, obj, Equals(name, e)) == EqualsField(f, e);
    }
  }

  // ---------------------------------------------------------------- ordering

  /** GreaterThanOrEqual is Equals-or-GreaterThan, both halves evaluated, with
      an error from either half propagated. */
  lemma GreaterOrEqualIsEqualsOrGreater(ext: Ext, obj: Object, name: string, v: Value)
    ensures var eq, gt := ApplyEquals(ext, obj, name, v), ApplyGreaterThan(ext, obj, name, v);
            && (ApplyGreaterThanOrEqual(ext, obj, name, v).Err? <==> eq.Err? || gt.Err?)
            && (eq.Ok? && gt.Ok? ==> ApplyGreaterThanOrEqual(ext, obj, name, v) == Ok(eq.value || gt.value))
            && (eq.Err? ==> ApplyGreaterThanOrEqual(ext, obj, name, v) == eq)
            && (eq.Ok? && gt.Err? ==> ApplyGreaterThanOrEqual(ext, obj, name, v) == gt)
  {
  }

  /** LowerThanOrEqual is Equals-or-LowerThan, both halves evaluated, with an
      error from either half propagated. */
  lemma LowerOrEqualIsEqualsOrLower(ext: Ext, obj: Object, name: string, v: Value)
    ensures var eq, lt := ApplyEquals(ext, obj, name, v), ApplyLowerThan(ext, obj, name, v);
            && (ApplyLowerThanOrEqual(ext, obj, name, v).Err? <==> eq.Err? || lt.Err?)
            && (eq.Ok? && lt.Ok? ==> ApplyLowerThanOrEqual(ext, obj, name, v) == Ok(eq.value || lt.value))
            && (eq.Err? ==> ApplyLowerThanOrEqual(ext, obj, name, v) == eq)
            && (eq.Ok? && lt.Err? ==> ApplyLowerThanOrEqual(ext, obj, name, v) == lt)
  {
  }

  /** FilterApplies hands GreaterThan and LowerThan to their handlers. */
  lemma StrictDispatch(ext: Ext, obj: Object, name: string, v: Value)
    ensures FilterApplies(ext, obj, GreaterThan(name, v)) == ApplyGreaterThan(ext, obj, name, v)
    ensures FilterApplies(ext, obj, LowerThan(name, v)) == ApplyLowerThan(ext, obj, name, v)
  {
  }

  /** FilterApplies hands GreaterThanOrEqual to its handler. */
  lemma GreaterOrEqualDispatch(ext: Ext, obj: Object, name: string, v: Value)
    ensures FilterApplies(ext, obj, GreaterThanOrEqual(name, v)) == ApplyGreaterThanOrEqual(ext, obj, name, v)
  {
  }

  /** FilterApplies hands LowerThanOrEqual to its handler. */
  lemma LowerOrEqualDispatch(ext: Ext, obj: Object, name: string, v: Value)
    ensures FilterApplies(ext, obj, LowerThanOrEqual(name, v)) == ApplyLowerThanOrEqual(ext, obj, name, v)
  {
  }

  /** The ordered families: int/int, float/float, uint/uint, a string field
      against any operand, and time/time. */
  predicate OrderedPair(x: Value, v: Value) {
    (x.IntV? && v.IntV?) || (x.FloatV? && v.FloatV?) || (x.UintV? && v.UintV?) || x.StrV? || (x.TimeV? && v.TimeV?)
  }

  /** On an exported field GreaterThan and LowerThan succeed exactly for the
      ordered families (so an int field against a float or uint operand is an
      error), are never both true, and fail or succeed together. */
  lemma OrderingFamilies(ext: Ext, obj: Object, name: string, v: Value)
    requires GetField(ext, obj, name).Ok? && GetField(ext, obj, name).value.exported
    ensures FilterApplies(ext, obj, GreaterThan(name, v)).Ok? <==> OrderedPair(GetField(ext, obj, name).value.value, v)
    ensures FilterApplies(ext, obj, LowerThan(name, v)).Ok? <==> OrderedPair(GetField(ext, obj, name).value.value, v)
    ensures !OrderedPair(GetField(ext, obj, name).value.value, v) && !(GetField(ext, obj, name).value.value.TimeV? && v.NilV?) ==>
              FilterApplies(ext, obj, GreaterThan(name, v)) == Err(CannotCompare)
              && FilterApplies(ext, obj, LowerThan(name, v)) == Err(CannotCompare)
    ensures !(FilterApplies(ext, obj, GreaterThan(name, v)) == Ok(true) && FilterApplies(ext, obj, LowerThan(name, v)) == Ok(true))
  {
    OrderingTrichotomy(GetField(ext, obj, name).value, v);
  }

  /** A string field is compared with reflect's String() of the operand, which
      for a non-string operand is a placeholder such as "<int Value>". */
  lemma StringFieldComparesPlaceholder(ext: Ext, obj: Object, name: string, v: Value)
    requires GetField(ext, obj, name).Ok? && GetField(ext, obj, name).value.value.StrV?
    ensures FilterApplies(ext, obj, GreaterThan(name, v)) ==
              Ok(StrLess(ReflectString(v), GetField(ext, obj, name).value.value.s))
    ensures !v.StrV? ==> |ReflectString(v)| > 0 && ReflectString(v)[0] == '<'
  {
  }

  /** GreaterThan holds when the field lies after the operand: numerically for
      ints, floats and uints, as the later instant for times (time.After), and in
      Go's string order for a string field. */
  lemma GreaterThanDirection(ext: Ext, obj: Object, name: string, v: Value)
    requires GetField(ext, obj, name).Ok?
    ensures var f := GetField(ext, obj, name).value; var x := f.value;
            && (x.IntV? && v.IntV? ==> FilterApplies(ext, obj, GreaterThan(name, v)) == Ok(x.i > v.i))
            && (x.FloatV? && v.FloatV? ==> FilterApplies(ext, obj, GreaterThan(name, v)) == Ok(x.x > v.x))
            && (x.UintV? && v.UintV? ==> FilterApplies(ext, obj, GreaterThan(name, v)) == Ok(x.u > v.u))
            && (f.exported && x.TimeV? && v.TimeV? ==>
                  FilterApplies(ext, obj, GreaterThan(name, v)) == Ok(x.instant > v.instant))
            && (x.StrV? && v.StrV? ==> FilterApplies(ext, obj, GreaterThan(name, v)) == Ok(StrLess(v.s, x.s)))
  {
  }

  /** LowerThan holds when the field lies before the operand: numerically for
      ints, floats and uints, as the earlier instant for times (time.Before), and
      in Go's string order for a string field. */
  lemma LowerThanDirection(ext: Ext, obj: Object, name: string, v: Value)
    requires GetField(ext, obj, name).Ok?
    ensures var f := GetField(ext, obj, name).value; var x := f.value;
            && (x.IntV? && v.IntV? ==> FilterApplies(ext, obj, LowerThan(name, v)) == Ok(x.i < v.i))
            && (x.FloatV? && v.FloatV? ==> FilterApplies(ext, obj, LowerThan(name, v)) == Ok(x.x < v.x))
            && (x.UintV? && v.UintV? ==> FilterApplies(ext, obj, LowerThan(name, v)) == Ok(x.u < v.u))
            && (f.exported && x.TimeV? && v.TimeV? ==>
                  FilterApplies(ext, obj, LowerThan(name, v)) == Ok(x.instant < v.instant))
            && (x.StrV? && v.StrV? ==> FilterApplies(ext, obj, LowerThan(name, v)) == Ok(StrLess(x.s, v.s)))
  {
  }

  /** For a field and operand of one ordered dynamic type, GreaterThanOrEqual is
      the negation of LowerThan. */
  lemma GreaterOrEqualIsNotLower(ext: Ext, obj: Object, name: string, v: Value)
    requires GetField(ext, obj, name).Ok? && GetField(ext, obj, name).value.exported
    requires TypeOf(GetField(ext, obj, name).value.value) == TypeOf(v)
    requires v.IntV? || v.FloatV? || v.UintV? || v.StrV? || v.TimeV?
    ensures ApplyLowerThan(ext, obj, name, v).Ok?
    ensures ApplyGreaterThanOrEqual(ext, obj, name, v) == Ok(!ApplyLowerThan(ext, obj, name, v).value)
  {
    OrderingTrichotomy(GetField(ext, obj, name).value, v);
  }

  /** For a field and operand of one ordered dynamic type, LowerThanOrEqual is
      the negation of GreaterThan. */
  lemma LowerOrEqualIsNotGreater(ext: Ext, obj: Object, name: string, v: Value)
    requires GetField(ext, obj, name).Ok? && GetField(ext, obj, name).value.exported
    requires TypeOf(GetField(ext, obj, name).value.value) == TypeOf(v)
    requires v.IntV? || v.FloatV? || v.UintV? || v.StrV? || v.TimeV?
    ensures ApplyGreaterThan(ext, obj, name, v).Ok?
    ensures ApplyLowerThanOrEqual(ext, obj, name, v) == Ok(!ApplyGreaterThan(ext, obj, name, v).value)
  {
    OrderingTrichotomy(GetField(ext, obj, name).value, v);
  }

  /** Equals compares dynamic types but the ordering does not: an int32 field
      holding n is neither greater nor lower than the int operand n, yet
      GreaterThanOrEqual and LowerThanOrEqual are both false. */
  lemma OrEqualMissesEqualValueOfOtherWidth(ext: Ext, obj: Object, name: string, n: int)
    requires GetField(ext, obj, name) == Ok(Resolved(IntV(Size32, n), true))
    ensures ApplyGreaterThan(ext, obj, name, IntV(Native, n)) == Ok(false)
    ensures ApplyLowerThan(ext, obj, name, IntV(Native, n)) == Ok(false)
    ensures ApplyGreaterThanOrEqual(ext, obj, name, IntV(Native, n)) == Ok(false)
    ensures ApplyLowerThanOrEqual(ext, obj, name, IntV(Native, n)) == Ok(false)
  {
  }

  /** Both halves of GreaterThanOrEqual run: a bool field equal to the operand
      still fails, because bools cannot be ordered. */
  lemma OrEqualSurfacesOrderingError(ext: Ext, obj: Object, name: string, b: bool)
    requires GetField(ext, obj, name) == Ok(Resolved(BoolV(b), true))
    ensures ApplyEquals(ext, obj, name, BoolV(b)) == Ok(true)
    ensures ApplyGreaterThanOrEqual(ext, obj, name, BoolV(b)) == Err(CannotCompare)
    ensures ApplyLowerThanOrEqual(ext, obj, name, BoolV(b)) == Err(CannotCompare)
  {
  }

  // ---------------------------------------------------------------- nil tests

  /** IsNil and NotNil fail only when the field cannot be resolved; NotNil is the
      negation of IsNil; a field of a non-nullable kind is never nil. */
  lemma NilTests(ext: Ext, obj: Object, name: string)
    ensures FilterApplies(ext, obj, IsNil(name)).Ok? <==> GetField(ext, obj, name).Ok?
    ensures FilterApplies(ext, obj, NotNil(name)) == Negate(FilterApplies(ext, obj, IsNil(name)))
    ensures GetField(ext, obj, name).Ok? && !Nullable(GetField(ext, obj, name).value.value) ==>
              FilterApplies(ext, obj, IsNil(name)) == Ok(false)
    ensures GetField(ext, obj, name).Ok? && Nullable(GetField(ext, obj, name).value.value) ==>
              FilterApplies(ext, obj, IsNil(name)) == Ok(IsNilRef(GetField(ext, obj, name).value.value))
  {
  }

  // ------------------------------------------------------------ text matching

  /** Contains on an exported field is a substring test between the lower-cased
      renderings of operand and field. */
  lemma ContainsSemantics(ext: Ext, obj: Object, name: string, v: Value)
    requires GetField(ext, obj, name).Ok? && GetField(ext, obj, name).value.exported
    ensures FilterApplies(ext, obj, Contains(name, v)) ==
              Ok(IsSubstring(ext.toLower(Format(ext, v)), ext.toLower(Format(ext, GetField(ext, obj, name).value.value))))
  {
  }

  /** ArrayContainsArray is an alias of ArrayContains: both reach the same
      handler, which also takes the alias's operand as one scalar. */
  lemma ArrayContainsDispatch(ext: Ext, obj: Object, name: string, v: Value)
    ensures FilterApplies(ext, obj, ArrayContains(name, v)) == ApplyArrayContains(ext, obj, name, v)
    ensures FilterApplies(ext, obj, ArrayContainsArray(name, v)) == ApplyArrayContains(ext, obj, name, v)
  {
  }

  /** ArrayContains: Contains on a string field, an error on any other
      non-sequence field, element membership on a slice or array. */
  lemma ArrayContainsSemantics(ext: Ext, obj: Object, name: string, v: Value)
    ensures GetField(ext, obj, name).Err? ==>
              ApplyArrayContains(ext, obj, name, v) == Err(GetField(ext, obj, name).error)
    ensures GetField(ext, obj, name).Ok? && GetField(ext, obj, name).value.value.StrV? ==>
              ApplyArrayContains(ext, obj, name, v) == ApplyContains(ext, obj, name, StrV(Format(ext, v)))
    ensures GetField(ext, obj, name).Ok? && !GetField(ext, obj, name).value.value.StrV?
              && !IsSequence(GetField(ext, obj, name).value.value) ==>
              ApplyArrayContains(ext, obj, name, v) == Err(FieldNotASequence)
    ensures GetField(ext, obj, name).Ok? && IsSequence(GetField(ext, obj, name).value.value)
              && ApplyArrayContains(ext, obj, name, v).Ok? ==>
              (ApplyArrayContains(ext, obj, name, v).value <==> v in Elements(GetField(ext, obj, name).value.value))
  {
  }

  /** Regex asks the regular-expression matcher about the field's text (after
      one pointer dereference); a pattern that does not compile is an error. */
  lemma RegexSemantics(ext: Ext, obj: Object, name: string, pattern: string)
    requires GetField(ext, obj, name).Ok?
    ensures var subject := Matching.RegexSubject(obj.mem, GetField(ext, obj, name).value.value);
            && (FilterApplies(ext, obj, Regex(name, pattern)).Err? <==> ext.matchString(pattern, subject).None?)
            && (FilterApplies(ext, obj, Regex(name, pattern)).Ok? ==>
                  Some(FilterApplies(ext, obj, Regex(name, pattern)).value) == ext.matchString(pattern, subject))
  {
  }

  // ------------------------------------------------------------ set operators

  /** ArraysOverlap (and its alias Overlaps): an error on a non-sequence field;
      false for an empty field, a nil operand or an empty operand, before any
      type check; an error for differing element types; otherwise true exactly
      when the two share an element. */
  lemma ArraysOverlapSemantics(ext: Ext, obj: Object, name: string, v: Value)
    requires GetField(ext, obj, name).Ok?
    ensures FilterApplies(ext, obj, Overlaps(name, v)) == FilterApplies(ext, obj, ArraysOverlap(name, v))
    ensures var x := GetField(ext, obj, name).value.value;
            && (!IsSequence(x) ==> FilterApplies(ext, obj, ArraysOverlap(name, v)) == Err(FieldNotASequence))
            && (IsSequence(x) && (|Elements(x)| == 0 || v.NilV? || (IsSequence(v) && |Elements(v)| == 0)) ==>
                  FilterApplies(ext, obj, ArraysOverlap(name, v)) == Ok(false))
            && (IsSequence(x) && |Elements(x)| > 0 && !v.NilV? && !IsSequence(v) ==>
                  FilterApplies(ext, obj, ArraysOverlap(name, v)) == Err(OperandNotASequence))
            && (IsSequence(x) && IsSequence(v) && |Elements(x)| > 0 && |Elements(v)| > 0 && ElemType(x) != ElemType(v) ==>
                  FilterApplies(ext, obj, ArraysOverlap(name, v)) == Err(ElementTypeMismatch))
            && (FilterApplies(ext, obj, ArraysOverlap(name, v)).Ok? ==>
                  (FilterApplies(ext, obj, ArraysOverlap(name, v)).value <==>
                     IsSequence(v) && exists e :: e in Elements(x) && e in Elements(v)))
  {
  }

  /** On a field that is a non-empty sequence: readable elements of comparable
      dynamic types against a sequence operand of the same element type give an
      answer, never a panic. */
  lemma ArraysOverlapWithoutPanic(f: Resolved, v: Value)
    requires IsSequence(f.value) && IsSequence(v) && ElemType(f.value) == ElemType(v)
    requires f.exported
    requires forall i :: 0 <= i < |Elements(f.value)| ==> Comparable(TypeOf(Elements(f.value)[i]))
    requires forall i :: 0 <= i < |Elements(v)| ==> Comparable(TypeOf(Elements(v)[i]))
    ensures OverlapField(f, v).Ok? && IsContainedField(f, v).Ok?
  {
  }

  lemma {:induction false} SameMembersSameComparability(xs: seq<Value>, ys: seq<Value>)
    requires multiset(xs) == multiset(ys)
    ensures (forall i :: 0 <= i < |xs| ==> Comparable(TypeOf(xs[i]))) <==>
            (forall i :: 0 <= i < |ys| ==> Comparable(TypeOf(ys[i])))
    ensures forall x :: x in xs <==> x in ys
    ensures |xs| == |ys|
  {
    assert forall x :: x in xs <==> x in multiset(xs);
    assert forall y :: y in ys <==> y in multiset(ys);
    assert |xs| == |multiset(xs)| == |multiset(ys)| == |ys|;
    if forall i :: 0 <= i < |xs| ==> Comparable(TypeOf(xs[i])) {
      forall i | 0 <= i < |ys| ensures Comparable(TypeOf(ys[i])) {
        assert ys[i] in ys;
      }
    }
    if forall i :: 0 <= i < |ys| ==> Comparable(TypeOf(ys[i])) {
      forall i | 0 <= i < |xs| ensures Comparable(TypeOf(xs[i])) {
        assert xs[i] in xs;
      }
    }
  }

  lemma {:induction false} KeySetOfSameMembers(xs: seq<Value>, ys: seq<Value>)
    requires multiset(xs) == multiset(ys)
    ensures KeySet(xs) == KeySet(ys)
  {
    SameMembersSameComparability(xs, ys);
    if KeySet(xs).Ok? {
      assert KeySet(xs).value == KeySet(ys).value;
    } else {
      assert KeySet(xs).error == KeySet(ys).error;
    }
  }

  /** ArraysOverlap and ArrayIsContained do not depend on the order (or the
      arrangement) of the operand's elements. */
  lemma SetOperatorsIgnoreOperandOrder(f: Resolved, v: Value, w: Value)
    requires IsSequence(v) && IsSequence(w) && ElemType(v) == ElemType(w)
    requires multiset(Elements(v)) == multiset(Elements(w))
    ensures OverlapField(f, v) == OverlapField(f, w)
    ensures IsContainedField(f, v) == IsContainedField(f, w)
  {
    SameMembersSameComparability(Elements(v), Elements(w));
    KeySetOfSameMembers(Elements(v), Elements(w));
  }

  /** ArrayIsContained: an error on a non-sequence field; true for an empty field
      whatever the operand; false for a non-empty field and a nil or empty
      operand; an error for differing element types; otherwise true exactly when
      every field element occurs in the operand. */
  lemma ArrayIsContainedSemantics(ext: Ext, obj: Object, name: string, v: Value)
    requires GetField(ext, obj, name).Ok?
    ensures var x := GetField(ext, obj, name).value.value;
            && (!IsSequence(x) ==> FilterApplies(ext, obj, ArrayIsContained(name, v)) == Err(FieldNotASequence))
            && (IsSequence(x) && |Elements(x)| == 0 ==> FilterApplies(ext, obj, ArrayIsContained(name, v)) == Ok(true))
            && (IsSequence(x) && |Elements(x)| > 0 && (v.NilV? || (IsSequence(v) && |Elements(v)| == 0)) ==>
                  FilterApplies(ext, obj, ArrayIsContained(name, v)) == Ok(false))
            && (IsSequence(x) && |Elements(x)| > 0 && !v.NilV? && !IsSequence(v) ==>
                  FilterApplies(ext, obj, ArrayIsContained(name, v)) == Err(OperandNotASequence))
            && (IsSequence(x) && IsSequence(v) && |Elements(x)| > 0 && |Elements(v)| > 0 && ElemType(x) != ElemType(v) ==>
                  FilterApplies(ext, obj, ArrayIsContained(name, v)) == Err(ElementTypeMismatch))
            && (FilterApplies(ext, obj, ArrayIsContained(name, v)).Ok? ==>
                  (FilterApplies(ext, obj, ArrayIsContained(name, v)).value <==>
                     forall e :: e in Elements(x) ==> IsSequence(v) && e in Elements(v)))
  {
  }
}

=== FILE: matching.dfy ===
/** Text matching on a resolved field: the case-insensitive substring test of
    Contains and the regular-expression test of Regex. */
module Matching {
  import opened Wrappers
  import opened Errors
  import opened Values
  import opened Text
  import opened Foreign
  import opened Fields

  /** applyContains after resolution: both sides rendered with "%s", lower-cased,
      then searched with strings.Index. */
  function ContainsField(ext: Ext, f: Resolved, v: Value): (r: Outcome)
    ensures r.Ok? <==> f.exported
    ensures r.Err? ==> r.error == Panic(UnexportedField)
    ensures r.Ok? ==>
              (r.value <==> IsSubstring(ext.toLower(Format(ext, v)), ext.toLower(Format(ext, f.value))))
  {
    var x :- Interface(f);
    Ok(Index(ext.toLower(Format(ext, x)), ext.toLower(Format(ext, v))) != -1)
  }

  /** The text Regex matches against: reflect's String() of the field, after one
      pointer dereference (a nil pointer dereferences to the invalid Value). */
  function RegexSubject(mem: nat -> Value, v: Value): (r: string)
    ensures v.StrV? ==> r == v.s
    ensures v.PtrV? && v.addr.Some? && mem(v.addr.value).StrV? ==> r == mem(v.addr.value).s
    ensures !v.StrV? && !v.PtrV? ==> r == ReflectString(v)
    ensures v.PtrV? && v.addr.None? ==> r == ReflectString(NilV)
    ensures v.PtrV? && v.addr.Some? ==> r == ReflectString(mem(v.addr.value))
  {
    if v.PtrV? then
      if v.addr.None? then ReflectString(NilV) else ReflectString(mem(v.addr.value))
    else ReflectString(v)
  }

  /** applyRegex after resolution. */
  function RegexField(ext: Ext, mem: nat -> Value, f: Resolved, pattern: string): (r: Outcome)
    ensures r.Err? <==> ext.matchString(pattern, RegexSubject(mem, f.value)).None?
    ensures r.Err? ==> r.error == InvalidPattern
    ensures r.Ok? ==> Some(r.value) == ext.matchString(pattern, RegexSubject(mem, f.value))
  {
    match ext.matchString(pattern, RegexSubject(mem, f.value))
    case None => Err(InvalidPattern)
    case Some(b) => Ok(b)
  }
}

=== FILE: scenarios.dfy ===
/** Worked examples: the record type of the library's own test suite, evaluated
    with concrete stand-ins for the foreign calls. */
module Scenarios {
  import opened Wrappers
  import opened Errors
  import opened Values
  import opened Text
  import opened Foreign
  import opened Fields
  import opened Conditions
  import opened Evaluator
  import EvaluatorLaws

  /** strcase.ToCamel on the names used here: an initial ASCII lower-case letter
      is capitalised. */
  function Capitalize(s: string): (r: string)
    ensures |r| == |s| && (|s| > 0 ==> r[1..] == s[1..])
    ensures |s| > 0 && 'A' <= s[0] <= 'Z' ==> r == s
  {
    if |s| > 0 && 'a' <= s[0] <= 'z' then [(s[0] as int - 32) as char] + s[1..] else s
  }

  function AsciiLowerChar(c: char): char {
    if 'A' <= c <= 'Z' then (c as int + 32) as char else c
  }

  /** strings.ToLower restricted to ASCII. */
  function AsciiLower(s: string): (r: string)
    ensures |r| == |s|
    ensures forall i :: 0 <= i < |s| ==> r[i] == AsciiLowerChar(s[i])
  {
    seq(|s|, i requires 0 <= i < |s| => AsciiLowerChar(s[i]))
  }

  predicate EndsWith(suffix: string, s: string) {
    |suffix| <= |s| && s[|s| - |suffix|..] == suffix
  }

  /** regexp.MatchString on literal patterns with an optional trailing `$`. */
  function LiteralMatch(pattern: string, s: string): Option<bool> {
    if |pattern| > 0 && pattern[|pattern| - 1] == '$' then Some(EndsWith(pattern[..|pattern| - 1], s))
    else Some(IsSubstring(pattern, s))
  }

  const ExampleExt := Ext(Capitalize, c => 'A' <= c <= 'Z', AsciiLower, v => "", LiteralMatch)

  /** A TestObject value: Id, TaskType, Name, Nicknames, HouseIds, CreatedAt and
      a nil ChildObject. An empty slice argument stands for a field the Go
      literal leaves unset, which is a nil slice. */
  function TestObject(id: int, taskType: string, name: string, nicknames: seq<string>, houseIds: seq<int>, createdAt: int): (r: Object)
    ensures r.root.StructV? && |r.root.fields| == 7
  {
    var record := StructType("filterobject.TestObject", false);
    Object(
      StructV("filterobject.TestObject", false, [
        Field("Id", IntV(Native, id)),
        Field("TaskType", StrV(taskType)),
        Field("Name", StrV(name)),
        Field("Nicknames",
          if |nicknames| == 0 then NilSliceV(StringType)
          else SliceV(StringType, seq(|nicknames|, i requires 0 <= i < |nicknames| => StrV(nicknames[i])))),
        Field("HouseIds",
          if |houseIds| == 0 then NilSliceV(IntType(Native))
          else SliceV(IntType(Native), seq(|houseIds|, i requires 0 <= i < |houseIds| => IntV(Native, houseIds[i])))),
        Field("CreatedAt", TimeV(createdAt)),
        Field("ChildObject", PtrV(record, None))
      ]),
      _ => NilV)
  }

  /** The field a declared name resolves to, identified by its position. */
  lemma ResolvesAt(ext: Ext, obj: Object, name: string, i: nat)
    requires obj.root.StructV? && i < |obj.root.fields|
    requires NameMatches(ext, obj.root.fields[i], name)
    requires forall j :: 0 <= j < i ==> !NameMatches(ext, obj.root.fields[j], name)
    ensures GetField(ext, obj, name) ==
              Ok(Resolved(obj.root.fields[i].value, IsExported(ext, obj.root.fields[i].name)))
  {
    assert FirstMatch(ext, obj.root.fields, name, 0) == Some(i);
  }

  lemma ResolveTaskType(obj: Object)
    requires obj.root.StructV? && |obj.root.fields| >= 2
    requires obj.root.fields[0].name == "Id" && obj.root.fields[1].name == "TaskType"
    ensures GetField(ExampleExt, obj, "taskType") == Ok(Resolved(obj.root.fields[1].value, true))
  {
    assert Capitalize("taskType") == "TaskType";
    assert Capitalize("Id") == "Id";
    ResolvesAt(ExampleExt, obj, "taskType", 1);
  }

  lemma ResolveName(obj: Object)
    requires obj.root.StructV? && |obj.root.fields| >= 3
    requires obj.root.fields[0].name == "Id" && obj.root.fields[1].name == "TaskType" && obj.root.fields[2].name == "Name"
    ensures GetField(ExampleExt, obj, "name") == Ok(Resolved(obj.root.fields[2].value, true))
  {
    assert Capitalize("name") == "Name";
    assert Capitalize("Id") == "Id";
    assert Capitalize("TaskType") == "TaskType";
    ResolvesAt(ExampleExt, obj, "name", 2);
  }

  /** Lower-casing both sides keeps an occurrence. */
  lemma LowerKeepsOccurrence(needle: string, hay: string, i: nat)
    requires OccursAt(needle, hay, i)
    ensures IsSubstring(AsciiLower(needle), AsciiLower(hay))
  {
    var n, h := AsciiLower(needle), AsciiLower(hay);
    forall k | 0 <= k < |n| ensures h[i + k] == n[k] {
      assert hay[i + k] == hay[i..i + |needle|][k];
    }
    assert h[i..i + |n|] == n;
    assert OccursAt(n, h, i);
  }

  /** The field answering to `name` is exported and holds v. */
  predicate Holds(obj: Object, name: string, v: Value) {
    GetField(ExampleExt, obj, name) == Ok(Resolved(v, true))
  }

  /** The scalar fields of a TestObject resolve from their declared names. */
  lemma TestObjectScalars(obj: Object, id: int, taskType: string, name: string, nicknames: seq<string>, houseIds: seq<int>)
    requires obj == TestObject(id, taskType, name, nicknames, houseIds, 0)
    ensures Holds(obj, "id", IntV(Native, id))
    ensures Holds(obj, "taskType", StrV(taskType))
    ensures Holds(obj, "name", StrV(name))
  {
    ResolveId(obj);
    ResolveTaskType(obj);
    ResolveName(obj);
  }

  lemma ResolveId(obj: Object)
    requires obj.root.StructV? && |obj.root.fields| >= 1 && obj.root.fields[0].name == "Id"
    ensures GetField(ExampleExt, obj, "id") == Ok(Resolved(obj.root.fields[0].value, true))
  {
    assert Capitalize("id") == "Id";
    ResolvesAt(ExampleExt, obj, "id", 0);
  }

  /** Equals holds of an exported field exactly when it holds the operand. */
  lemma EqualsOnHeldField(obj: Object, name: string, x: Value, v: Value)
    requires Holds(obj, name, x) && Comparable(TypeOf(v))
    ensures FilterApplies(ExampleExt, obj, Equals(name, v)) == Ok(x == v)
  {
    EvaluatorLaws.EqualsSemantics(ExampleExt, obj, name, v);
  }

  // ------------------------------------------------------- Harry Potter

  lemma HarryContainsOtter(obj: Object)
    requires Holds(obj, "name", StrV("Harry Potter"))
    ensures FilterApplies(ExampleExt, obj, Contains("name", StrV("otter"))) == Ok(true)
  {
    EvaluatorLaws.ContainsSemantics(ExampleExt, obj, "name", StrV("otter"));
    LowerKeepsOccurrence("otter", "Harry Potter", 7);
    assert ExampleExt.toLower("otter") == AsciiLower("otter");
    assert ExampleExt.toLower("Harry Potter") == AsciiLower("Harry Potter");
  }

  /** Harry Potter, whose task type is magic, passes an AND of an Equals and a
      Contains. */
  lemma HarryPotterAnd(obj: Object)
    requires Holds(obj, "taskType", StrV("magic")) && Holds(obj, "name", StrV("Harry Potter"))
    ensures FilterApplies(ExampleExt, obj,
              Where(And([Equals("taskType", StrV("magic")), Contains("name", StrV("otter"))]))) == Ok(true)
  {
    var cs := [Equals("taskType", StrV("magic")), Contains("name", StrV("otter"))];
    EqualsOnHeldField(obj, "taskType", StrV("magic"), StrV("magic"));
    HarryContainsOtter(obj);
    EvaluatorLaws.AndAppliesIffEveryChildApplies(ExampleExt, obj, cs);
    EvaluatorLaws.PassThroughConditions(ExampleExt, obj, And(cs), "");
  }

  /** The Harry Potter record also passes an OR whose first child does not apply
      and whose second does. */
  lemma HarryPotterOr(obj: Object)
    requires Holds(obj, "taskType", StrV("magic")) && Holds(obj, "name", StrV("Harry Potter"))
    ensures FilterApplies(ExampleExt, obj,
              Where(Or([Equals("name", StrV("Hermine Granger")), Equals("taskType", StrV("magic"))]))) == Ok(true)
  {
    var cs := [Equals("name", StrV("Hermine Granger")), Equals("taskType", StrV("magic"))];
    EqualsOnHeldField(obj, "name", StrV("Harry Potter"), StrV("Hermine Granger"));
    EqualsOnHeldField(obj, "taskType", StrV("magic"), StrV("magic"));
    EvaluatorLaws.OrStopsAtFirstDecidedChild(ExampleExt, obj, cs, 1);
    EvaluatorLaws.PassThroughConditions(ExampleExt, obj, Or(cs), "");
  }

  /** The first two rows of the table-driven evaluator test, on a TestObject. */
  lemma HarryPotterRecord(obj: Object)
    requires obj == TestObject(0, "magic", "Harry Potter", [], [], 0)
    ensures FilterApplies(ExampleExt, obj,
              Where(And([Equals("taskType", StrV("magic")), Contains("name", StrV("otter"))]))) == Ok(true)
    ensures FilterApplies(ExampleExt, obj,
              Where(Or([Equals("name", StrV("Hermine Granger")), Equals("taskType", StrV("magic"))]))) == Ok(true)
  {
    TestObjectScalars(obj, 0, "magic", "Harry Potter", [], []);
    HarryPotterAnd(obj);
    HarryPotterOr(obj);
  }

  // ------------------------------------------------------------- Willi

  lemma WilliFirstGroup(obj: Object)
    requires Holds(obj, "id", IntV(Native, 42))
    ensures FilterApplies(ExampleExt, obj,
              Group(Or([Equals("id", IntV(Native, 42)), Equals("name", StrV("Hans"))]))) == Ok(true)
  {
    var first := [Equals("id", IntV(Native, 42)), Equals("name", StrV("Hans"))];
    EqualsOnHeldField(obj, "id", IntV(Native, 42), IntV(Native, 42));
    EvaluatorLaws.OrStopsAtFirstDecidedChild(ExampleExt, obj, first, 0);
    EvaluatorLaws.PassThroughConditions(ExampleExt, obj, Or(first), "");
  }

  lemma WilliNestedOr(obj: Object)
    requires Holds(obj, "id", IntV(Native, 42)) && Holds(obj, "name", StrV("Willi"))
    ensures FilterApplies(ExampleExt, obj,
              Or([Equals("id", IntV(Native, 999)), Equals("name", StrV("Berta"))])) == Ok(false)
  {
    var nested := [Equals("id", IntV(Native, 999)), Equals("name", StrV("Berta"))];
    EqualsOnHeldField(obj, "id", IntV(Native, 42), IntV(Native, 999));
    EqualsOnHeldField(obj, "name", StrV("Willi"), StrV("Berta"));
    EvaluatorLaws.OrFalseWhenNoChildApplies(ExampleExt, obj, nested);
  }

  lemma WilliSecondGroup(obj: Object)
    requires Holds(obj, "id", IntV(Native, 42)) && Holds(obj, "name", StrV("Willi"))
    ensures FilterApplies(ExampleExt, obj,
              Group(And([
                Group(Or([Equals("id", IntV(Native, 999)), Equals("name", StrV("Berta"))])),
                Group(ArrayContains("houseIds", IntV(Native, 2)))]))) == Ok(false)
  {
    var nested := [Equals("id", IntV(Native, 999)), Equals("name", StrV("Berta"))];
    var inner := [Group(Or(nested)), Group(ArrayContains("houseIds", IntV(Native, 2)))];
    WilliNestedOr(obj);
    EvaluatorLaws.PassThroughConditions(ExampleExt, obj, Or(nested), "");
    EvaluatorLaws.AndStopsAtFirstNonMatch(ExampleExt, obj, inner, 0);
    EvaluatorLaws.PassThroughConditions(ExampleExt, obj, And(inner), "");
  }

  /** Willi (id 42) matches the first group but neither alternative of the
      nested OR, so the whole filter does not apply; the ArrayContains leaf is
      never reached. */
  lemma WilliGroups(obj: Object)
    requires obj == TestObject(42, "magic", "Willi", ["Will", "William"], [1, 2, 3], 0)
    ensures FilterApplies(ExampleExt, obj,
              Where(And([
                Group(Or([Equals("id", IntV(Native, 42)), Equals("name", StrV("Hans"))])),
                Group(And([
                  Group(Or([Equals("id", IntV(Native, 999)), Equals("name", StrV("Berta"))])),
                  Group(ArrayContains("houseIds", IntV(Native, 2)))]))]))) == Ok(false)
  {
    var first := [Equals("id", IntV(Native, 42)), Equals("name", StrV("Hans"))];
    var nested := [Equals("id", IntV(Native, 999)), Equals("name", StrV("Berta"))];
    var inner := [Group(Or(nested)), Group(ArrayContains("houseIds", IntV(Native, 2)))];
    var outer := [Group(Or(first)), Group(And(inner))];
    TestObjectScalars(obj, 42, "magic", "Willi", ["Will", "William"], [1, 2, 3]);
    WilliFirstGroup(obj);
    WilliSecondGroup(obj);
    EvaluatorLaws.AndStopsAtFirstNonMatch(ExampleExt, obj, outer, 1);
    EvaluatorLaws.PassThroughConditions(ExampleExt, obj, And(outer), "");
  }

  // ------------------------------------------------- negating conditions

  /** A record with id 9999 passes NOT(id = 4711). */
  lemma NotEqualsId(obj: Object)
    requires obj == TestObject(9999, "", "", [], [], 0)
    ensures FilterApplies(ExampleExt, obj, Where(Not(Equals("id", IntV(Native, 4711))))) == Ok(true)
  {
    TestObjectScalars(obj, 9999, "", "", [], []);
    EqualsOnHeldField(obj, "id", IntV(Native, 9999), IntV(Native, 4711));
    EvaluatorLaws.NotNegates(ExampleExt, obj, Equals("id", IntV(Native, 4711)));
    EvaluatorLaws.PassThroughConditions(ExampleExt, obj, Not(Equals("id", IntV(Native, 4711))), "");
  }

  lemma MustermannRegex(obj: Object)
    requires Holds(obj, "name", StrV("Mustermann"))
    ensures FilterApplies(ExampleExt, obj, Where(Regex("name", "mann$"))) == Ok(true)
    ensures FilterApplies(ExampleExt, obj, Where(NotRegex("name", "frau$"))) == Ok(true)
  {
    EvaluatorLaws.RegexSemantics(ExampleExt, obj, "name", "mann$");
    EvaluatorLaws.RegexSemantics(ExampleExt, obj, "name", "frau$");
    assert "Mustermann"[6..] == "mann";
    assert "Mustermann"[6..] != "frau";
    assert ExampleExt.matchString("mann$", "Mustermann") == Some(true);
    assert ExampleExt.matchString("frau$", "Mustermann") == Some(false);
    EvaluatorLaws.NotRegexNegatesRegex(ExampleExt, obj, "name", "frau$");
    EvaluatorLaws.PassThroughConditions(ExampleExt, obj, Regex("name", "mann$"), "");
    EvaluatorLaws.PassThroughConditions(ExampleExt, obj, NotRegex("name", "frau$"), "");
  }

  lemma MustermannNotEquals(obj: Object)
    requires Holds(obj, "name", StrV("Mustermann"))
    ensures FilterApplies(ExampleExt, obj, Where(NotEquals("name", StrV("Musterfrau")))) == Ok(true)
  {
    EqualsOnHeldField(obj, "name", StrV("Mustermann"), StrV("Musterfrau"));
    EvaluatorLaws.NotEqualsNegatesEquals(ExampleExt, obj, "name", StrV("Musterfrau"));
    EvaluatorLaws.PassThroughConditions(ExampleExt, obj, NotEquals("name", StrV("Musterfrau")), "");
  }

  /** Mustermann matches the pattern "mann$", does not match "frau$", and is not
      equal to Musterfrau. */
  lemma MustermannScenarios(obj: Object)
    requires obj == TestObject(0, "", "Mustermann", [], [], 0)
    ensures FilterApplies(ExampleExt, obj, Where(Regex("name", "mann$"))) == Ok(true)
    ensures FilterApplies(ExampleExt, obj, Where(NotRegex("name", "frau$"))) == Ok(true)
    ensures FilterApplies(ExampleExt, obj, Where(NotEquals("name", StrV("Musterfrau")))) == Ok(true)
  {
    TestObjectScalars(obj, 0, "", "Mustermann", [], []);
    MustermannRegex(obj);
    MustermannNotEquals(obj);
  }

  // ------------------------------------------------------------ errors

  lemma NoFieldAnswersToUnknownField(obj: Object)
    requires obj == TestObject(1, "someType", "", [], [], 0)
    ensures GetField(ExampleExt, obj, "unknownField") == Err(FieldNotFound("unknownField"))
  {
    var fs := obj.root.fields;
    assert Capitalize("unknownField") == "UnknownField";
    forall i | 0 <= i < |fs| ensures !NameMatches(ExampleExt, fs[i], "unknownField") {
      assert Capitalize(fs[i].name)[0] != 'U';
    }
    assert FirstMatch(ExampleExt, fs, "unknownField", 0).None?;
  }

  /** A field name the record does not declare is an error. */
  lemma UnknownFieldIsAnError(obj: Object)
    requires obj == TestObject(1, "someType", "", [], [], 0)
    ensures FilterApplies(ExampleExt, obj, Equals("unknownField", IntV(Native, 1))) == Err(FieldNotFound("unknownField"))
  {
    NoFieldAnswersToUnknownField(obj);
    EvaluatorLaws.EqualsSemantics(ExampleExt, obj, "unknownField", IntV(Native, 1));
  }

  // ---------------------------------------------------------- ordering

  /** Felix, id 15: greater than 14 but not 15; at least 15 but not at least 16. */
  lemma FelixIdOrdering(obj: Object)
    requires Holds(obj, "id", IntV(Native, 15))
    ensures FilterApplies(ExampleExt, obj, GreaterThan("id", IntV(Native, 14))) == Ok(true)
    ensures FilterApplies(ExampleExt, obj, GreaterThan("id", IntV(Native, 15))) == Ok(false)
    ensures ApplyGreaterThanOrEqual(ExampleExt, obj, "id", IntV(Native, 15)) == Ok(true)
    ensures ApplyGreaterThanOrEqual(ExampleExt, obj, "id", IntV(Native, 16)) == Ok(false)
  {
    EvaluatorLaws.StrictDispatch(ExampleExt, obj, "id", IntV(Native, 14));
    EvaluatorLaws.StrictDispatch(ExampleExt, obj, "id", IntV(Native, 15));
  }

  /** Felix sorts after berta. */
  lemma FelixNameOrdering(obj: Object)
    requires Holds(obj, "name", StrV("felix"))
    ensures FilterApplies(ExampleExt, obj, GreaterThan("name", StrV("berta"))) == Ok(true)
  {
    EvaluatorLaws.StringFieldComparesPlaceholder(ExampleExt, obj, "name", StrV("berta"));
    assert StrLess("berta", "felix");
  }

  /** Felix, id 15, is lower than 16 but not 14 or 15, and sorts before hans but
      not before berta or felix. */
  lemma FelixLowerOrdering(obj: Object)
    requires Holds(obj, "id", IntV(Native, 15)) && Holds(obj, "name", StrV("felix"))
    ensures FilterApplies(ExampleExt, obj, LowerThan("id", IntV(Native, 14))) == Ok(false)
    ensures FilterApplies(ExampleExt, obj, LowerThan("id", IntV(Native, 15))) == Ok(false)
    ensures FilterApplies(ExampleExt, obj, LowerThan("id", IntV(Native, 16))) == Ok(true)
    ensures FilterApplies(ExampleExt, obj, LowerThan("name", StrV("berta"))) == Ok(false)
    ensures FilterApplies(ExampleExt, obj, LowerThan("name", StrV("felix"))) == Ok(false)
    ensures FilterApplies(ExampleExt, obj, LowerThan("name", StrV("hans"))) == Ok(true)
  {
    EvaluatorLaws.LowerThanDirection(ExampleExt, obj, "id", IntV(Native, 14));
    EvaluatorLaws.LowerThanDirection(ExampleExt, obj, "id", IntV(Native, 15));
    EvaluatorLaws.LowerThanDirection(ExampleExt, obj, "id", IntV(Native, 16));
    EvaluatorLaws.LowerThanDirection(ExampleExt, obj, "name", StrV("berta"));
    EvaluatorLaws.LowerThanDirection(ExampleExt, obj, "name", StrV("felix"));
    EvaluatorLaws.LowerThanDirection(ExampleExt, obj, "name", StrV("hans"));
    assert !StrLess("felix", "berta");
    assert !StrLess("felix", "felix");
    assert StrLess("felix", "hans");
  }

  /** One hour, with instants counted in nanoseconds as time.Duration does. */
  const Hour: int := 3_600_000_000_000

  /** A creation time t is after t - 5h but not after t or t + 3h. */
  lemma CreatedAtGreater(obj: Object, t: int)
    requires Holds(obj, "createdAt", TimeV(t))
    ensures FilterApplies(ExampleExt, obj, GreaterThan("createdAt", TimeV(t - 5 * Hour))) == Ok(true)
    ensures FilterApplies(ExampleExt, obj, GreaterThan("createdAt", TimeV(t))) == Ok(false)
    ensures FilterApplies(ExampleExt, obj, GreaterThan("createdAt", TimeV(t + 3 * Hour))) == Ok(false)
  {
    EvaluatorLaws.GreaterThanDirection(ExampleExt, obj, "createdAt", TimeV(t - 5 * Hour));
    EvaluatorLaws.GreaterThanDirection(ExampleExt, obj, "createdAt", TimeV(t));
    EvaluatorLaws.GreaterThanDirection(ExampleExt, obj, "createdAt", TimeV(t + 3 * Hour));
  }

  /** A creation time t is before t + 3h but not before t or t - 5h. */
  lemma CreatedAtLower(obj: Object, t: int)
    requires Holds(obj, "createdAt", TimeV(t))
    ensures FilterApplies(ExampleExt, obj, LowerThan("createdAt", TimeV(t - 5 * Hour))) == Ok(false)
    ensures FilterApplies(ExampleExt, obj, LowerThan("createdAt", TimeV(t))) == Ok(false)
    ensures FilterApplies(ExampleExt, obj, LowerThan("createdAt", TimeV(t + 3 * Hour))) == Ok(true)
  {
    EvaluatorLaws.LowerThanDirection(ExampleExt, obj, "createdAt", TimeV(t - 5 * Hour));
    EvaluatorLaws.LowerThanDirection(ExampleExt, obj, "createdAt", TimeV(t));
    EvaluatorLaws.LowerThanDirection(ExampleExt, obj, "createdAt", TimeV(t + 3 * Hour));
  }

  /** Felix, id 15, is not greater than 16, and sorts after neither felix nor
      hans. */
  lemma FelixGreaterRest(obj: Object)
    requires Holds(obj, "id", IntV(Native, 15)) && Holds(obj, "name", StrV("felix"))
    ensures FilterApplies(ExampleExt, obj, GreaterThan("id", IntV(Native, 16))) == Ok(false)
    ensures FilterApplies(ExampleExt, obj, GreaterThan("name", StrV("felix"))) == Ok(false)
    ensures FilterApplies(ExampleExt, obj, GreaterThan("name", StrV("hans"))) == Ok(false)
  {
    EvaluatorLaws.GreaterThanDirection(ExampleExt, obj, "id", IntV(Native, 16));
    EvaluatorLaws.GreaterThanDirection(ExampleExt, obj, "name", StrV("felix"));
    EvaluatorLaws.GreaterThanDirection(ExampleExt, obj, "name", StrV("hans"));
    assert !StrLess("felix", "felix");
    assert !StrLess("hans", "felix");
  }

  /** On an exported field holding x, GreaterThanOrEqual is x == v or the
      GreaterThan outcome, once that outcome is not an error. */
  lemma GreaterOrEqualOnHeldField(obj: Object, name: string, x: Value, v: Value)
    requires Holds(obj, name, x) && Comparable(TypeOf(v))
    requires FilterApplies(ExampleExt, obj, GreaterThan(name, v)).Ok?
    ensures FilterApplies(ExampleExt, obj, GreaterThanOrEqual(name, v)) ==
              Ok(x == v || FilterApplies(ExampleExt, obj, GreaterThan(name, v)).value)
  {
    EqualsOnHeldField(obj, name, x, v);
    assert FilterApplies(ExampleExt, obj, Equals(name, v)) == ApplyEquals(ExampleExt, obj, name, v);
    EvaluatorLaws.StrictDispatch(ExampleExt, obj, name, v);
    EvaluatorLaws.GreaterOrEqualDispatch(ExampleExt, obj, name, v);
    EvaluatorLaws.GreaterOrEqualIsEqualsOrGreater(ExampleExt, obj, name, v);
  }

  /** On an exported field holding x, LowerThanOrEqual is x == v or the
      LowerThan outcome, once that outcome is not an error. */
  lemma LowerOrEqualOnHeldField(obj: Object, name: string, x: Value, v: Value)
    requires Holds(obj, name, x) && Comparable(TypeOf(v))
    requires FilterApplies(ExampleExt, obj, LowerThan(name, v)).Ok?
    ensures FilterApplies(ExampleExt, obj, LowerThanOrEqual(name, v)) ==
              Ok(x == v || FilterApplies(ExampleExt, obj, LowerThan(name, v)).value)
  {
    EqualsOnHeldField(obj, name, x, v);
    assert FilterApplies(ExampleExt, obj, Equals(name, v)) == ApplyEquals(ExampleExt, obj, name, v);
    EvaluatorLaws.StrictDispatch(ExampleExt, obj, name, v);
    EvaluatorLaws.LowerOrEqualDispatch(ExampleExt, obj, name, v);
    EvaluatorLaws.LowerOrEqualIsEqualsOrLower(ExampleExt, obj, name, v);
  }

  /** Felix, id 15, is at least 14 and 15 but not at least 16. */
  lemma FelixGreaterOrEqualId(obj: Object)
    requires Holds(obj, "id", IntV(Native, 15))
    ensures FilterApplies(ExampleExt, obj, GreaterThanOrEqual("id", IntV(Native, 14))) == Ok(true)
    ensures FilterApplies(ExampleExt, obj, GreaterThanOrEqual("id", IntV(Native, 15))) == Ok(true)
    ensures FilterApplies(ExampleExt, obj, GreaterThanOrEqual("id", IntV(Native, 16))) == Ok(false)
  {
    EvaluatorLaws.GreaterThanDirection(ExampleExt, obj, "id", IntV(Native, 14));
    EvaluatorLaws.GreaterThanDirection(ExampleExt, obj, "id", IntV(Native, 15));
    EvaluatorLaws.GreaterThanDirection(ExampleExt, obj, "id", IntV(Native, 16));
    GreaterOrEqualOnHeldField(obj, "id", IntV(Native, 15), IntV(Native, 14));
    GreaterOrEqualOnHeldField(obj, "id", IntV(Native, 15), IntV(Native, 15));
    GreaterOrEqualOnHeldField(obj, "id", IntV(Native, 15), IntV(Native, 16));
  }

  /** Felix sorts at or after berta and felix, but not at or after hans. */
  lemma FelixGreaterOrEqualName(obj: Object)
    requires Holds(obj, "name", StrV("felix"))
    ensures FilterApplies(ExampleExt, obj, GreaterThanOrEqual("name", StrV("berta"))) == Ok(true)
    ensures FilterApplies(ExampleExt, obj, GreaterThanOrEqual("name", StrV("felix"))) == Ok(true)
    ensures FilterApplies(ExampleExt, obj, GreaterThanOrEqual("name", StrV("hans"))) == Ok(false)
  {
    EvaluatorLaws.GreaterThanDirection(ExampleExt, obj, "name", StrV("berta"));
    EvaluatorLaws.GreaterThanDirection(ExampleExt, obj, "name", StrV("felix"));
    EvaluatorLaws.GreaterThanDirection(ExampleExt, obj, "name", StrV("hans"));
    assert StrLess("berta", "felix");
    assert !StrLess("hans", "felix");
    GreaterOrEqualOnHeldField(obj, "name", StrV("felix"), StrV("berta"));
    GreaterOrEqualOnHeldField(obj, "name", StrV("felix"), StrV("felix"));
    GreaterOrEqualOnHeldField(obj, "name", StrV("felix"), StrV("hans"));
  }

  /** A creation time t is at or after t - 5h and t, but not at or after t + 3h. */
  lemma CreatedAtGreaterOrEqual(obj: Object, t: int)
    requires Holds(obj, "createdAt", TimeV(t))
    ensures FilterApplies(ExampleExt, obj, GreaterThanOrEqual("createdAt", TimeV(t - 5 * Hour))) == Ok(true)
    ensures FilterApplies(ExampleExt, obj, GreaterThanOrEqual("createdAt", TimeV(t))) == Ok(true)
    ensures FilterApplies(ExampleExt, obj, GreaterThanOrEqual("createdAt", TimeV(t + 3 * Hour))) == Ok(false)
  {
    CreatedAtGreater(obj, t);
    GreaterOrEqualOnHeldField(obj, "createdAt", TimeV(t), TimeV(t - 5 * Hour));
    GreaterOrEqualOnHeldField(obj, "createdAt", TimeV(t), TimeV(t));
    GreaterOrEqualOnHeldField(obj, "createdAt", TimeV(t), TimeV(t + 3 * Hour));
  }

  /** Felix, id 15, is at most 15 and 16 but not at most 14. */
  lemma FelixLowerOrEqualId(obj: Object)
    requires Holds(obj, "id", IntV(Native, 15))
    ensures FilterApplies(ExampleExt, obj, LowerThanOrEqual("id", IntV(Native, 14))) == Ok(false)
    ensures FilterApplies(ExampleExt, obj, LowerThanOrEqual("id", IntV(Native, 15))) == Ok(true)
    ensures FilterApplies(ExampleExt, obj, LowerThanOrEqual("id", IntV(Native, 16))) == Ok(true)
  {
    EvaluatorLaws.LowerThanDirection(ExampleExt, obj, "id", IntV(Native, 14));
    EvaluatorLaws.LowerThanDirection(ExampleExt, obj, "id", IntV(Native, 15));
    EvaluatorLaws.LowerThanDirection(ExampleExt, obj, "id", IntV(Native, 16));
    LowerOrEqualOnHeldField(obj, "id", IntV(Native, 15), IntV(Native, 14));
    LowerOrEqualOnHeldField(obj, "id", IntV(Native, 15), IntV(Native, 15));
    LowerOrEqualOnHeldField(obj, "id", IntV(Native, 15), IntV(Native, 16));
  }

  /** Felix sorts at or before felix and hans, but not at or before berta. */
  lemma FelixLowerOrEqualName(obj: Object)
    requires Holds(obj, "name", StrV("felix"))
    ensures FilterApplies(ExampleExt, obj, LowerThanOrEqual("name", StrV("berta"))) == Ok(false)
    ensures FilterApplies(ExampleExt, obj, LowerThanOrEqual("name", StrV("felix"))) == Ok(true)
    ensures FilterApplies(ExampleExt, obj, LowerThanOrEqual("name", StrV("hans"))) == Ok(true)
  {
    EvaluatorLaws.LowerThanDirection(ExampleExt, obj, "name", StrV("berta"));
    EvaluatorLaws.LowerThanDirection(ExampleExt, obj, "name", StrV("felix"));
    EvaluatorLaws.LowerThanDirection(ExampleExt, obj, "name", StrV("hans"));
    assert !StrLess("felix", "berta");
    assert StrLess("felix", "hans");
    LowerOrEqualOnHeldField(obj, "name", StrV("felix"), StrV("berta"));
    LowerOrEqualOnHeldField(obj, "name", StrV("felix"), StrV("felix"));
    LowerOrEqualOnHeldField(obj, "name", StrV("felix"), StrV("hans"));
  }

  /** A creation time t is at or before t and t + 3h, but not at or before
      t - 5h. */
  lemma CreatedAtLowerOrEqual(obj: Object, t: int)
    requires Holds(obj, "createdAt", TimeV(t))
    ensures FilterApplies(ExampleExt, obj, LowerThanOrEqual("createdAt", TimeV(t - 5 * Hour))) == Ok(false)
    ensures FilterApplies(ExampleExt, obj, LowerThanOrEqual("createdAt", TimeV(t))) == Ok(true)
    ensures FilterApplies(ExampleExt, obj, LowerThanOrEqual("createdAt", TimeV(t + 3 * Hour))) == Ok(true)
  {
    CreatedAtLower(obj, t);
    LowerOrEqualOnHeldField(obj, "createdAt", TimeV(t), TimeV(t - 5 * Hour));
    LowerOrEqualOnHeldField(obj, "createdAt", TimeV(t), TimeV(t));
    LowerOrEqualOnHeldField(obj, "createdAt", TimeV(t), TimeV(t + 3 * Hour));
  }

  // ------------------------------------------------------ pointer records

  /** Equals on a record passed by pointer (`&obj`) sees the fields of the
      TestObject it points to. */
  lemma PointerToTestObject(obj: Object, target: Object)
    requires target == TestObject(1, "someType", "", [], [], 0)
    requires obj.root.PtrV? && obj.root.addr.Some? && obj.mem(obj.root.addr.value) == target.root
    ensures FilterApplies(ExampleExt, obj, Equals("id", IntV(Native, 1))) == Ok(true)
    ensures FilterApplies(ExampleExt, obj, Equals("id", IntV(Native, 2))) == Ok(false)
  {
    TestObjectScalars(target, 1, "someType", "", [], []);
    PointerRecordResolvesLikeTarget(ExampleExt, obj, "id");
    assert GetField(ExampleExt, Object(target.root, obj.mem), "id") == GetField(ExampleExt, target, "id");
    EqualsOnHeldField(obj, "id", IntV(Native, 1), IntV(Native, 1));
    EqualsOnHeldField(obj, "id", IntV(Native, 1), IntV(Native, 2));
  }

  // ------------------------------------------------------------ arrays

  lemma ResolveNicknames(obj: Object)
    requires obj.root.StructV? && |obj.root.fields| >= 4
    requires obj.root.fields[0].name == "Id" && obj.root.fields[1].name == "TaskType" && obj.root.fields[2].name == "Name"
    requires obj.root.fields[3].name == "Nicknames"
    ensures GetField(ExampleExt, obj, "nicknames") == Ok(Resolved(obj.root.fields[3].value, true))
  {
    assert Capitalize("nicknames") == "Nicknames";
    assert Capitalize("Id") == "Id";
    assert Capitalize("TaskType") == "TaskType";
    assert Capitalize("Name") == "Name";
    ResolvesAt(ExampleExt, obj, "nicknames", 3);
  }

  lemma ResolveHouseIds(obj: Object)
    requires obj.root.StructV? && |obj.root.fields| >= 5
    requires obj.root.fields[0].name == "Id" && obj.root.fields[1].name == "TaskType" && obj.root.fields[2].name == "Name"
    requires obj.root.fields[3].name == "Nicknames" && obj.root.fields[4].name == "HouseIds"
    ensures GetField(ExampleExt, obj, "houseIds") == Ok(Resolved(obj.root.fields[4].value, true))
  {
    assert Capitalize("houseIds") == "HouseIds";
    assert Capitalize("Id") == "Id";
    assert Capitalize("TaskType") == "TaskType";
    assert Capitalize("Name") == "Name";
    assert Capitalize("Nicknames") == "Nicknames";
    ResolvesAt(ExampleExt, obj, "houseIds", 4);
  }

  lemma SlicesOfArrayObject(obj: Object)
    requires obj == TestObject(0, "", "", ["foo", "bar", "baz"], [1, 2, 3], 0)
    ensures Holds(obj, "nicknames", SliceV(StringType, [StrV("foo"), StrV("bar"), StrV("baz")]))
    ensures Holds(obj, "houseIds", SliceV(IntType(Native), [IntV(Native, 1), IntV(Native, 2), IntV(Native, 3)]))
  {
    var names: seq<string> := ["foo", "bar", "baz"];
    var ids: seq<int> := [1, 2, 3];
    var ns := seq(|names|, i requires 0 <= i < |names| => StrV(names[i]));
    var hs := seq(|ids|, i requires 0 <= i < |ids| => IntV(Native, ids[i]));
    assert ns == [StrV("foo"), StrV("bar"), StrV("baz")];
    assert hs == [IntV(Native, 1), IntV(Native, 2), IntV(Native, 3)];
    ResolveNicknames(obj);
    ResolveHouseIds(obj);
  }

  /** A slice of strings holds exactly its elements. */
  lemma NicknamesContain(obj: Object)
    requires Holds(obj, "nicknames", SliceV(StringType, [StrV("foo"), StrV("bar"), StrV("baz")]))
    ensures FilterApplies(ExampleExt, obj, ArrayContains("nicknames", StrV("bar"))) == Ok(true)
    ensures FilterApplies(ExampleExt, obj, ArrayContains("nicknames", StrV("test"))) == Ok(false)
  {
  }

  /** A slice of ints holds exactly its elements; ArrayContainsArray agrees. */
  lemma HouseIdsContain(obj: Object)
    requires Holds(obj, "houseIds", SliceV(IntType(Native), [IntV(Native, 1), IntV(Native, 2), IntV(Native, 3)]))
    ensures FilterApplies(ExampleExt, obj, ArrayContains("houseIds", IntV(Native, 2))) == Ok(true)
    ensures FilterApplies(ExampleExt, obj, ArrayContainsArray("houseIds", IntV(Native, 4))) == Ok(false)
  {
    EvaluatorLaws.ArrayContainsDispatch(ExampleExt, obj, "houseIds", IntV(Native, 2));
    EvaluatorLaws.ArrayContainsDispatch(ExampleExt, obj, "houseIds", IntV(Native, 4));
  }

  /** The ArrayContains rows of the handler tests, on a TestObject. */
  lemma ArrayContainsRecord(obj: Object)
    requires obj == TestObject(0, "", "", ["foo", "bar", "baz"], [1, 2, 3], 0)
    ensures FilterApplies(ExampleExt, obj, ArrayContains("nicknames", StrV("bar"))) == Ok(true)
    ensures FilterApplies(ExampleExt, obj, ArrayContains("nicknames", StrV("test"))) == Ok(false)
    ensures FilterApplies(ExampleExt, obj, ArrayContains("houseIds", IntV(Native, 2))) == Ok(true)
    ensures FilterApplies(ExampleExt, obj, ArrayContainsArray("houseIds", IntV(Native, 4))) == Ok(false)
  {
    SlicesOfArrayObject(obj);
    NicknamesContain(obj);
    HouseIdsContain(obj);
  }

  /** The ordering rows of the handler tests, on a TestObject. */
  lemma FelixRecord(obj: Object)
    requires obj == TestObject(15, "", "felix", [], [], 0)
    ensures FilterApplies(ExampleExt, obj, GreaterThan("id", IntV(Native, 14))) == Ok(true)
    ensures FilterApplies(ExampleExt, obj, GreaterThan("id", IntV(Native, 15))) == Ok(false)
    ensures FilterApplies(ExampleExt, obj, GreaterThanOrEqual("id", IntV(Native, 15))) == Ok(true)
    ensures FilterApplies(ExampleExt, obj, GreaterThan("name", StrV("berta"))) == Ok(true)
  {
    TestObjectScalars(obj, 15, "", "felix", [], []);
    FelixIdOrdering(obj);
    FelixNameOrdering(obj);
    EvaluatorLaws.GreaterOrEqualDispatch(ExampleExt, obj, "id", IntV(Native, 15));
  }
}

=== FILE: sets.dfy ===
/** The array operators on a resolved, sequence-valued field: ArrayContains (and
    its alias ArrayContainsArray), ArraysOverlap (and its alias Overlaps) and
    ArrayIsContained. The set operators put the operand's elements in a Go map
    and look the field's elements up in it. */
module ArraySets {
  import opened Wrappers
  import opened Errors
  import opened Values
  import opened Fields
  import opened Comparison

  /** ArrayContains on a slice/array field: some element equals the operand,
      taken as one scalar. */
  function ArrayContainsField(f: Resolved, v: Value): (r: Outcome)
    requires IsSequence(f.value)
    ensures r.Ok? ==> (r.value <==> v in Elements(f.value))
    ensures f.exported && Comparable(TypeOf(v)) ==> r == Ok(v in Elements(f.value))
    ensures |Elements(f.value)| == 0 ==> r == Ok(false)
  {
    Member(f.exported, v, Elements(f.value))
  }

  /** Building `map[any]struct{}` from the operand's elements: insertion panics
      on the first element of a non-comparable dynamic type. */
  function KeySet(xs: seq<Value>): (r: Result<set<Value>, Error>)
    ensures r.Ok? <==> forall i :: 0 <= i < |xs| ==> Comparable(TypeOf(xs[i]))
    ensures r.Ok? ==> forall x :: x in r.value <==> x in xs
    ensures r.Err? ==> r.error == Panic(Unhashable)
  {
    if |xs| == 0 then Ok({})
    else if !Comparable(TypeOf(xs[0])) then Err(Panic(Unhashable))
    else
      var rest :- KeySet(xs[1..]);
      Ok({xs[0]} + rest)
  }

  /** Looking the field's elements up until one is found (ArraysOverlap). Each
      lookup takes Interface() of the element and hashes it. */
  function AnyIn(readable: bool, xs: seq<Value>, keys: set<Value>): (r: Outcome)
    ensures r.Ok? ==> (r.value <==> exists x :: x in xs && x in keys)
    ensures |xs| == 0 ==> r == Ok(false)
    ensures readable && (forall i :: 0 <= i < |xs| ==> Comparable(TypeOf(xs[i]))) ==> r.Ok?
    ensures r.Err? ==> r.error == Panic(UnexportedField) || r.error == Panic(Unhashable)
  {
    if |xs| == 0 then Ok(false)
    else if !readable then Err(Panic(UnexportedField))
    else if !Comparable(TypeOf(xs[0])) then Err(Panic(Unhashable))
    else if xs[0] in keys then Ok(true)
    else
      var r := AnyIn(readable, xs[1..], keys);
      assert r.Ok? ==> ((exists x :: x in xs && x in keys) <==> exists x :: x in xs[1..] && x in keys);
      r
  }

  /** Looking the field's elements up until one is missing (ArrayIsContained). */
  function AllIn(readable: bool, xs: seq<Value>, keys: set<Value>): (r: Outcome)
    ensures r.Ok? ==> (r.value <==> forall x :: x in xs ==> x in keys)
    ensures |xs| == 0 ==> r == Ok(true)
    ensures readable && (forall i :: 0 <= i < |xs| ==> Comparable(TypeOf(xs[i]))) ==> r.Ok?
    ensures r.Err? ==> r.error == Panic(UnexportedField) || r.error == Panic(Unhashable)
  {
    if |xs| == 0 then Ok(true)
    else if !readable then Err(Panic(UnexportedField))
    else if !Comparable(TypeOf(xs[0])) then Err(Panic(Unhashable))
    else if xs[0] !in keys then Ok(false)
    else
      var r := AllIn(readable, xs[1..], keys);
      assert r.Ok? ==> ((forall x :: x in xs ==> x in keys) <==> forall x :: x in xs[1..] ==> x in keys);
      r
  }

  /** applyArraysOverlap after resolution, in the source's check order: field
      kind, empty field, nil operand, operand kind, empty operand, element types,
      then the map lookup. */
  function OverlapField(f: Resolved, v: Value): (r: Outcome)
    ensures !IsSequence(f.value) ==> r == Err(FieldNotASequence)
    ensures IsSequence(f.value) && (|Elements(f.value)| == 0 || v.NilV?) ==> r == Ok(false)
    ensures IsSequence(f.value) && IsSequence(v) && |Elements(v)| == 0 ==> r == Ok(false)
    ensures IsSequence(f.value) && |Elements(f.value)| > 0 && !v.NilV? && !IsSequence(v) ==>
              r == Err(OperandNotASequence)
    ensures r.Ok? ==>
              (r.value <==> IsSequence(v) && exists x :: x in Elements(f.value) && x in Elements(v))
  {
    if !IsSequence(f.value) then Err(FieldNotASequence)
    else if |Elements(f.value)| == 0 then Ok(false)
    else if v.NilV? then Ok(false)
    else if !IsSequence(v) then Err(OperandNotASequence)
    else if |Elements(v)| == 0 then Ok(false)
    else if ElemType(f.value) != ElemType(v) then Err(ElementTypeMismatch)
    else
      var keys :- KeySet(Elements(v));
      AnyIn(f.exported, Elements(f.value), keys)
  }

  /** applyArrayIsContained after resolution, in the source's check order: field
      kind, empty field (true), nil operand, operand kind, empty operand, element
      types, then the map lookup. */
  function IsContainedField(f: Resolved, v: Value): (r: Outcome)
    ensures !IsSequence(f.value) ==> r == Err(FieldNotASequence)
    ensures IsSequence(f.value) && |Elements(f.value)| == 0 ==> r == Ok(true)
    ensures IsSequence(f.value) && |Elements(f.value)| > 0 && (v.NilV? || (IsSequence(v) && |Elements(v)| == 0)) ==>
              r == Ok(false)
    ensures IsSequence(f.value) && |Elements(f.value)| > 0 && !v.NilV? && !IsSequence(v) ==>
              r == Err(OperandNotASequence)
    ensures r.Ok? ==>
              (r.value <==> forall x :: x in Elements(f.value) ==> IsSequence(v) && x in Elements(v))
  {
    if !IsSequence(f.value) then Err(FieldNotASequence)
    else if |Elements(f.value)| == 0 then Ok(true)
    else
      assert Elements(f.value)[0] in Elements(f.value);
      if v.NilV? then Ok(false)
      else if !IsSequence(v) then Err(OperandNotASequence)
      else if |Elements(v)| == 0 then Ok(false)
      else if ElemType(f.value) != ElemType(v) then Err(ElementTypeMismatch)
      else
        var keys :- KeySet(Elements(v));
        AllIn(f.exported, Elements(f.value), keys)
  }
}

=== FILE: text.dfy ===
/** String operations the comparators rely on: substring search (strings.Index)
    and Go's lexicographic string order. */
module Text {

  /** `needle` occurs in `hay` starting at position i. */
  predicate OccursAt(needle: string, hay: string, i: nat) {
    i + |needle| <= |hay| && hay[i..i + |needle|] == needle
  }

  predicate IsSubstring(needle: string, hay: string) {
    exists i: nat :: i <= |hay| && OccursAt(needle, hay, i)
  }

  function IndexFrom(hay: string, needle: string, i: nat): (r: int)
    requires i <= |hay|
    decreases |hay| - i
    ensures r == -1 <==> forall j: nat :: i <= j ==> !OccursAt(needle, hay, j)
    ensures r != -1 ==> i <= r && OccursAt(needle, hay, r)
    ensures r != -1 ==> forall j: nat :: i <= j < r ==> !OccursAt(needle, hay, j)
  {
    if i + |needle| > |hay| then -1
    else if hay[i..i + |needle|] == needle then assert OccursAt(needle, hay, i); i
    else IndexFrom(hay, needle, i + 1)
  }

  /** strings.Index: the first position of `needle` in `hay`, or -1. */
  function Index(hay: string, needle: string): (r: int)
    ensures r == -1 <==> !IsSubstring(needle, hay)
    ensures r != -1 ==> 0 <= r && OccursAt(needle, hay, r)
    ensures r != -1 ==> forall j: nat :: j < r ==> !OccursAt(needle, hay, j)
  {
    IndexFrom(hay, needle, 0)
  }

  /** Go's `a < b` on strings: lexicographic by character (for valid UTF-8 the
      byte order Go uses and the code-point order agree). */
  predicate StrLess(a: string, b: string) {
    if |a| == 0 then |b| > 0
    else if |b| == 0 then false
    else if a[0] != b[0] then a[0] < b[0]
    else StrLess(a[1..], b[1..])
  }

  /** Exactly one of a < b, a == b, b < a holds. */
  lemma {:induction false} StrLessTrichotomy(a: string, b: string)
    ensures StrLess(a, b) || a == b || StrLess(b, a)
    ensures !(StrLess(a, b) && StrLess(b, a))
    ensures !StrLess(a, a)
    decreases |a|
  {
    if |a| > 0 && |b| > 0 && a[0] == b[0] {
      StrLessTrichotomy(a[1..], b[1..]);
      if a[1..] == b[1..] {
        assert a == [a[0]] + a[1..] && b == [b[0]] + b[1..];
      }
    }
    if |a| > 0 {
      StrLessTrichotomy(a[1..], a[1..]);
    }
  }
}

=== FILE: values.dfy ===
/** Go's dynamic values as the evaluator sees them through reflection: every value
    carries enough of its dynamic type for interface equality, reflect's kind tests
    and the element-type checks of the array operators. */
module Values {
  import opened Wrappers
  import opened Errors

  /** Width of a Go integer type; `Native` is plain `int` / `uint`. */
  datatype IntSize = Native | Size8 | Size16 | Size32 | Size64

  datatype FloatSize = Float32 | Float64

  /** Reference-like kinds that only have identity (no pointee the evaluator reads). */
  datatype RefKind = Chan | Func | Map | UnsafePointer

  /** A Go type. Struct types are nominal; `comparable` records whether Go's == is
      defined on the struct type (all of its field types are comparable). */
  datatype GoType =
    | UntypedNil                                // the type of the nil interface value
    | BoolType
    | IntType(isize: IntSize)
    | UintType(usize: IntSize)
    | FloatType(fsize: FloatSize)
    | StringType
    | TimeType                                  // time.Time
    | SliceType(elem: GoType)
    | ArrayType(len: nat, elem: GoType)
    | PointerType(target: GoType)
    | RefType(kind: RefKind, name: string)
    | StructType(name: string, comparable: bool)

  /** A dynamic value. Pointers hold an address into the record's memory (see
      `Fields.Object`), so structural equality of two pointers is address equality. */
  datatype Value =
    | NilV                                      // the nil interface (an absent operand)
    | BoolV(b: bool)
    | IntV(isize: IntSize, i: int)
    | UintV(usize: IntSize, u: nat)
    | FloatV(fsize: FloatSize, x: real)
    | StrV(s: string)
    | TimeV(instant: int)
    | SliceV(elem: GoType, items: seq<Value>)
    | NilSliceV(elem: GoType)
    | ArrayV(elem: GoType, items: seq<Value>)
    | PtrV(target: GoType, addr: Option<nat>)
    | RefV(kind: RefKind, name: string, id: Option<nat>)
    | StructV(name: string, comparable: bool, fields: seq<Field>)

  /** One struct field: its declared Go name and its value. */
  datatype Field = Field(name: string, value: Value)

  function TypeOf(v: Value): GoType {
    match v
    case NilV => UntypedNil
    case BoolV(_) => BoolType
    case IntV(n, _) => IntType(n)
    case UintV(n, _) => UintType(n)
    case FloatV(n, _) => FloatType(n)
    case StrV(_) => StringType
    case TimeV(_) => TimeType
    case SliceV(e, _) => SliceType(e)
    case NilSliceV(e) => SliceType(e)
    case ArrayV(e, xs) => ArrayType(|xs|, e)
    case PtrV(t, _) => PointerType(t)
    case RefV(k, n, _) => RefType(k, n)
    case StructV(n, c, _) => StructType(n, c)
  }

  /** Whether Go's == is defined on values of type t (slices, maps and functions are not). */
  predicate Comparable(t: GoType) {
    match t
    case SliceType(_) => false
    case RefType(k, _) => k != Map && k != Func
    case ArrayType(_, e) => Comparable(e)
    case StructType(_, c) => c
    case _ => true
  }

  /** Go's `a == b` on two interface values: false for different dynamic types, a
      run-time panic for one non-comparable dynamic type, value equality otherwise. */
  function GoEq(a: Value, b: Value): (r: Result<bool, Error>)
    ensures r == Ok(true) <==> a == b && Comparable(TypeOf(a))
    ensures r.Err? <==> TypeOf(a) == TypeOf(b) && !Comparable(TypeOf(a))
    ensures r.Err? ==> r.error == Panic(Uncomparable)
  {
    if TypeOf(a) != TypeOf(b) then Ok(false)
    else if !Comparable(TypeOf(a)) then Err(Panic(Uncomparable))
    else Ok(a == b)
  }

  lemma GoEqSymmetric(a: Value, b: Value)
    ensures GoEq(a, b) == GoEq(b, a)
  {
  }

  /** reflect's Slice and Array kinds. */
  predicate IsSequence(v: Value) {
    v.SliceV? || v.NilSliceV? || v.ArrayV?
  }

  function Elements(v: Value): seq<Value>
    requires IsSequence(v)
  {
    if v.NilSliceV? then [] else v.items
  }

  /** reflect's `Type().Elem()` of a slice or array. */
  function ElemType(v: Value): GoType
    requires IsSequence(v)
  {
    v.elem
  }

  /** The kinds on which reflect's IsNil is defined among the modelled values
      (pointer, slice, chan, func, map, unsafe pointer). */
  predicate Nullable(v: Value) {
    v.PtrV? || v.SliceV? || v.NilSliceV? || v.RefV?
  }

  /** reflect's IsNil on a nullable value. */
  predicate IsNilRef(v: Value)
    requires Nullable(v)
  {
    match v
    case PtrV(_, a) => a.None?
    case NilSliceV(_) => true
    case RefV(_, _, id) => id.None?
    case _ => false
  }

  function NatToString(n: nat): (r: string)
    ensures |r| > 0
  {
    var d := ['0', '1', '2', '3', '4', '5', '6', '7', '8', '9'][n % 10];
    if n < 10 then [d] else NatToString(n / 10) + [d]
  }

  function SizeSuffix(n: IntSize): string {
    match n
    case Native => ""
    case Size8 => "8"
    case Size16 => "16"
    case Size32 => "32"
    case Size64 => "64"
  }

  /** reflect.Type.String(). */
  function TypeName(t: GoType): (r: string)
    ensures |r| > 0 || t.RefType? || t.StructType?
  {
    match t
    case UntypedNil => "<nil>"
    case BoolType => "bool"
    case IntType(n) => "int" + SizeSuffix(n)
    case UintType(n) => "uint" + SizeSuffix(n)
    case FloatType(n) => if n == Float32 then "float32" else "float64"
    case StringType => "string"
    case TimeType => "time.Time"
    case SliceType(e) => "[]" + TypeName(e)
    case ArrayType(n, e) => "[" + NatToString(n) + "]" + TypeName(e)
    case PointerType(e) => "*" + TypeName(e)
    case RefType(_, name) => name
    case StructType(name, _) => name
  }

  /** reflect.Value.String(): the string itself for the String kind and a
      placeholder such as "<int Value>" for every other kind. */
  function ReflectString(v: Value): (r: string)
    ensures v.StrV? ==> r == v.s
    ensures !v.StrV? ==> |r| > 0 && r[0] == '<'
  {
    match v
    case NilV => "<invalid Value>"
    case StrV(s) => s
    case _ => "<" + TypeName(TypeOf(v)) + " Value>"
  }
}

=== FILE: wrappers.dfy ===
/** Failure-compatible Option and Result types used throughout the model. */
module Wrappers {

  datatype Option<+T> = None | Some(value: T)

  /** A value or an error; usable with `:-` so that errors propagate unchanged. */
  datatype Result<+T, +E> = Ok(value: T) | Err(error: E) {

    predicate IsFailure() {
      Err?
    }

    function PropagateFailure<U>(): Result<U, E>
      requires Err?
    {
      Err(error)
    }

    function Extract(): T
      requires Ok?
    {
      value
    }
  }
}
